=== FILE: README.md ===
# brightsky parsers, modelled in Dafny

This project models the parsing core of brightsky, `brightsky/parsers.py`. The core turns two kinds of archive published by the German weather service (DWD) into flat weather records:

- **MOSMIX forecasts** (`MOSMIXParser`). A KMZ archive holds one KML bulletin. The bulletin has one timestamp axis and a block (`Placemark`) per station. Each block has one whitespace-separated value series per forecast element: TTT, DD, FF, RR1c, SunD1 and PPPP. Every station yields one record per timestamp. A record is the station header (type `forecast`, the source `ProductID:IssueTime`, the station name, three coordinates) plus the i-th value of every series. A dash token is a missing value. A series whose length differs from the axis fails the station.
- **Recent observations** (`ObservationsParser` and its five profiles: temperature, precipitation, wind, sunshine, pressure). A zip archive holds one station's `Metadaten_Geographie_<id>.txt` location history and one `produkt_*` CSV. The station id comes from the first member name that matches. The history is a dict from start date to location; a repeated date keeps its first position and takes the last location. Each product row yields one record of type `recent`. Its location comes from an in-order scan of the history that stops at the first later date. Its element values come from the profile: `-999` means missing, then the profile's factor is applied (pressure ×100, sunshine ×60), then the temperature profile's conversion to kelvin. A converted value is rounded to two decimals.

## Modules

- `Results` (results.dfy): `Option`, `Result`, and one `Error` constructor per place where the code raises. `ToFloat` is `float()`; the decimal parser itself is a parameter `num`.
- `Text` (text.dfy): Python's `str.isspace`, `strip`, `split` and `join` on one separator, and the tokenising `re.sub(r'\s+', '\n', s.strip()).splitlines()`.
- `Rounding` (rounding.dfy): `round(x, 2)` on exact reals, with ties going to the even neighbour.
- `OrderedMap` (ordered_map.dfy): a Python dict as an insertion-ordered list of pairs.
- `Records` (records.dfy): the yielded record, and `Stream`. A `Stream` is what a generator produces: the records yielded before it raised, and what it raised.
- `Mosmix` (mosmix.dfy): `MOSMIXParser.parse`, `parse_source` and `parse_station`.
- `Profiles` (profiles.dfy): `ObservationsParser.parse_elements` and the five profile subclasses, each as a table of fields.
- `Observations` (observations.dfy): `parse`, `parse_station_id`, `parse_lat_lon_history` and `parse_records`.

Every parser is a function from decoded input to a `Stream`. Every raise of the code is an `Err`, or a `Stream` whose `failure` is set. The raise happens after whatever the generator had already yielded.

## Behaviour worth knowing

The model keeps these behaviours of the code as they are:

- **Only converted values are rounded.** `round(…, 2)` appears only in the `conversion_factors` loop and in the temperature override. Wind and precipitation values pass through as `float()` returns them (`Profiles.WindUnrounded`, `Profiles.PrecipitationUnrounded`).
- **A row dated before every history entry is not an error.** The loop variables `lat, lon, height` carry over from the previous row, so such a row reuses the previous row's location (`Observations.StaleLocation`). Only on the first row, when nothing has been bound yet, does Python raise an `UnboundLocalError`. The model calls this `UnboundLocation` (`Observations.UnboundFirstRow`).
- **The first coordinate is stored as `lat`.** Both the KML coordinates and the metadata columns give longitude first. The code stores the first component under `lat` and the second under `lon`, and so does the model (`Mosmix.StationRecords`, `Observations.ReadLocation`).
- **The location scan relies on date order.** The scan stops at the first date after the row's timestamp. With history dates in increasing order it finds the latest applicable entry (`Observations.LocateSorted`). Out of order it can miss one (`Observations.LocateStopsEarly`).

## Model

| member | source | states |
|---|---|---|
| `Mosmix.Parse` | brightsky/parsers.py:47-66 | An archive without exactly one member raises before anything is yielded. Otherwise the parse completes exactly when every station parses. When it raises, the error is that of some station k whose predecessors all parsed, and the records yielded are exactly theirs, in order. |
| `Mosmix.ForecastOutput` | brightsky/parsers.py:54-57 | A complete parse yields stations × timestamps records. Record i of station k sits at k·n + i. |
| `Mosmix.ForecastHeader` | brightsky/parsers.py:91-103 | Every yielded record is of type `forecast` and carries the bulletin's source, whether or not the parse completed. |
| `Mosmix.FailedStationYieldsNothing` | brightsky/parsers.py:54-57 | A failing station k makes the parse fail. The records yielded are exactly those of some run of stations before k that all parsed, so none of station k's or later stations' records are yielded. |
| `Mosmix.Source` | brightsky/parsers.py:73-74 | The source joins the texts with `:`. Splitting it at `:` gives the texts back when none contains a colon. `Mosmix.SourceOfProduct` pins the two-text case. |
| `Mosmix.SourceOfProduct` | brightsky/parsers.py:73-74 | The source is `ProductID:IssueTime`. The product id is its first `:`-piece when it has no colon itself. |
| `Mosmix.DecodeToken` | brightsky/parsers.py:86 | A token is missing iff its first CSV field is a lone dash. Otherwise it is `float()` of that field, or `BadNumber`. |
| `Mosmix.NegativeIsNotMissing` | brightsky/parsers.py:86 | A negative number such as `-5.0` is never read as missing. |
| `Mosmix.SeriesText` | brightsky/parsers.py:82-84 | Yields the value text of the first `Forecast` node with the element code, or None iff no node has that code. |
| `Mosmix.DecodeTokens` | brightsky/parsers.py:85-89 | Succeeds iff every token decodes; value i is token i's value. A failure is the first failing token's. |
| `Mosmix.Series` | brightsky/parsers.py:82-90 | A series succeeds iff its `Forecast` node exists, its text has one token per timestamp, and every token decodes. Value i is then token i's value. A missing node raises `MissingElement`, and a token count other than the timestamp count fails. |
| `Mosmix.Columns` | brightsky/parsers.py:81-90 | Reads the element series in table order. Succeeds iff every series succeeds; a failure is the first failing element's. |
| `Mosmix.ParseStation` | brightsky/parsers.py:76-103 | A station that parses yields exactly one record per timestamp. |
| `Mosmix.BaseRecord` | brightsky/parsers.py:91-98 | The header exists iff all three coordinate parts are numbers. It is the `forecast` type, the source, the station name, and the parts in order as lat, lon, height. |
| `Mosmix.Transpose` | brightsky/parsers.py:100-103 | One record per timestamp. Record i is the base record with timestamp i and, for every element in table order, the element's column name paired with value i of its series. `Mosmix.StationRecords` states this for a parsed station. |
| `Mosmix.StationRecords` | brightsky/parsers.py:76-103 | Record i of a station has the station header, timestamp i and, per element in table order, value i of that element's series. Its lat, lon and height are the three coordinate parts. |
| `Mosmix.StationOk` | brightsky/parsers.py:76-98 | A station parses iff its coordinates are three numbers and every element series decodes to one value per timestamp. |
| `Mosmix.LengthMismatchFailsStation` | brightsky/parsers.py:90 | A series with more or fewer tokens than timestamps fails the whole station. |
| `Records.Drain` | brightsky/parsers.py:54-57 | `yield from` over the stations. It completes iff every part succeeds, yielding all records in order. Otherwise it raises the first failing part's error, having yielded exactly the parts before it. |
| `Records.DrainStopsBefore` | brightsky/parsers.py:54-57 | With n records per successful part, a failure at part k yields exactly the records of some run of successful parts before k, so at most k·n records. |
| `Records.FlattenUniform` | brightsky/parsers.py:54-57 | Parts of n records flatten to parts × n records, with record i of part k at k·n + i. |
| `Records.FlattenMember` | brightsky/parsers.py:57 | Every flattened record is record i of some part k. |
| `Text.Strip` | brightsky/parsers.py:170 | The result has no whitespace at either end and is no longer than the input. |
| `Text.StripSlice` | brightsky/parsers.py:170 | `strip()` removes only whitespace, and only at the ends: the result is a slice flanked by whitespace. |
| `Text.StripPadded` | brightsky/parsers.py:131 | Stripping a whitespace-padded core without whitespace at its ends gives back the core. |
| `Text.Words` | brightsky/parsers.py:87-88 | Every token is non-empty and free of whitespace. `Text.WordsCons`, `Text.WordsLast` and `Text.WordsAllSpace` fix which tokens they are. |
| `Text.WordsJoin` | brightsky/parsers.py:87-88 | Tokens joined by blanks split back into the same tokens. |
| `Text.WordsAllSpace` | brightsky/parsers.py:88 | Text that is all whitespace has no tokens. |
| `Text.WordsSkipLead` | brightsky/parsers.py:88 | Leading whitespace of any length does not change the tokens. |
| `Text.WordsCons` | brightsky/parsers.py:87-88 | After any leading whitespace, a token followed by a run of one or more whitespace characters is the first token. The tokens of the rest follow it. |
| `Text.WordsLast` | brightsky/parsers.py:87-88 | A token between leading and trailing whitespace is the only token. |
| `Text.Split` | brightsky/parsers.py:79 | The pieces are at least one, and none contains the separator. |
| `Text.SplitCount` | brightsky/parsers.py:78-79 | There is one more piece than separators in the text, so three coordinates need exactly two commas. |
| `Text.JoinSplit` | brightsky/parsers.py:74 | Joining the pieces of a split restores the text. |
| `Text.SplitJoin` | brightsky/parsers.py:74 | Splitting a join of separator-free pieces gives back the pieces. |
| `Text.SplitAfterPiece` | brightsky/parsers.py:78-79 | Splitting `p:tail` gives p followed by the pieces of tail. |
| `Rounding.RoundHalfEven` | brightsky/parsers.py:176 | The result is within one half of the input; on an exact tie it is even. |
| `Rounding.Round2` | brightsky/parsers.py:176 | `round(x, 2)` is a whole number of hundredths within 0.005 of x. On an exact tie it is the even one. |
| `Rounding.RoundHalfEvenNearest` | brightsky/parsers.py:176 | No integer is nearer to the input than the result. |
| `Rounding.Round2Nearest` | brightsky/parsers.py:176 | No whole number of hundredths is nearer to x than `round(x, 2)`. |
| `Rounding.Round2Cents` | brightsky/parsers.py:176 | A value already in hundredths is unchanged by rounding. |
| `Rounding.Round2Idempotent` | brightsky/parsers.py:176 | A property of `round(x, 2)` alone: rounding an already rounded value changes nothing. |
| `OrderedMap.Put` | brightsky/parsers.py:133 | `d[k] = v` appends a new key and keeps an existing key's position. Afterwards `get(k)` is v, and distinct keys stay distinct. |
| `OrderedMap.PutNew` | brightsky/parsers.py:133 | Assigning a new key appends the pair. |
| `OrderedMap.PutExisting` | brightsky/parsers.py:133 | Assigning an existing key replaces its entry in place. |
| `OrderedMap.PutKeepsOthers` | brightsky/parsers.py:133 | Assigning k leaves every other key's value unchanged. |
| `OrderedMap.FromPairs` | brightsky/parsers.py:128-136 | The dict built by assigning the pairs in order has distinct keys. `OrderedMap.FromPairsLastWins`, `OrderedMap.FromPairsRepeatedKey` and `OrderedMap.FromPairsHasKey` fix its keys, order and values. |
| `OrderedMap.FromPairsSnoc` | brightsky/parsers.py:129-136 | One more row is one more assignment to the dict built so far. |
| `OrderedMap.FromPairsHasKey` | brightsky/parsers.py:128-136 | A key is present iff some pair names it. |
| `OrderedMap.FromPairsLastWins` | brightsky/parsers.py:128-136 | A key holds the value of the last pair that names it. |
| `OrderedMap.FromPairsRepeatedKey` | brightsky/parsers.py:128-136 | A repeated key leaves the key order unchanged and takes the new value. |
| `OrderedMap.FromPairsSorted` | brightsky/parsers.py:128-136 | Pairs assigned in non-decreasing key order give strictly increasing keys. |
| `OrderedMap.PutSorted` | brightsky/parsers.py:133 | Assigning a key no smaller than any present keeps the keys strictly increasing. |
| `Observations.MatchStationId` | brightsky/parsers.py:119 | A match is a non-empty run of digits taken from a name that starts with `Metadaten_Geographie_`. `Observations.MatchSound` and `Observations.MatchComplete` fix exactly which names match and what they yield. |
| `Observations.MatchSound` | brightsky/parsers.py:119 | A match is a non-empty digit run between `Metadaten_Geographie_` and `.txt` at the start of the name. |
| `Observations.MatchComplete` | brightsky/parsers.py:119 | Any name starting with the prefix, digits and `.txt` matches and yields exactly those digits, whatever follows. |
| `Observations.ParseStationId` | brightsky/parsers.py:117-121 | Yields the first matching member's id, or `NoStationId` iff no member matches. |
| `Observations.FirstMatchFrom` | brightsky/parsers.py:118-121 | The scan from position k yields the first match at or after k, and fails iff there is none. |
| `Observations.OpenMember` | brightsky/parsers.py:124 | Opening a name yields the last entry with that name, or `MissingMember` iff there is none. |
| `Observations.ProductNames` | brightsky/parsers.py:140-141 | Every listed name is an archive name starting with `produkt_`. |
| `Observations.NoProducts` | brightsky/parsers.py:140-141 | The product list is empty iff no name starts with `produkt_`. |
| `Observations.ProductFile` | brightsky/parsers.py:140-143 | The product file is a `produkt_` name of the archive. Otherwise the error reports the product count. |
| `Observations.ProductFileUnique` | brightsky/parsers.py:140-143 | The product file is found iff exactly one entry is a product entry, and then it is that entry. |
| `Observations.ProductOpens` | brightsky/parsers.py:143-144 | The product file found can always be opened. |
| `Observations.ToTime` | brightsky/parsers.py:149-150 | A date is `strptime` of the text, or `BadTimestamp` iff it rejects the text. |
| `Observations.ReadLocation` | brightsky/parsers.py:133-136 | The location is `float()` of Geogr.Laenge, Geogr.Breite and Stationshoehe, in that order, as lat, lon and height. It succeeds iff all three columns are present and parse. |
| `Observations.HistoryEntry` | brightsky/parsers.py:130-136 | An entry is the date of the trimmed `von_datum` and the row's location. It succeeds iff `von_datum` is present, its trimmed text parses as a date, and the location reads. A row without `von_datum` raises a missing-column error. |
| `Observations.HistoryEntries` | brightsky/parsers.py:129-136 | The rows succeed iff every row does. Entry i is row i's. |
| `Observations.ParseHistory` | brightsky/parsers.py:123-137 | The history exists iff every metadata row parses, and its dates are distinct. |
| `Observations.HistorySorted` | brightsky/parsers.py:128-136 | Metadata rows in non-decreasing date order give a history whose dates strictly increase. |
| `Observations.HistoryLastWins` | brightsky/parsers.py:128-136 | A date maps to the location of the last metadata row with that date. |
| `Observations.Locate` | brightsky/parsers.py:151-154 | The scan yields the previous binding or the location of some entry dated at or before the timestamp. `Observations.LocateLeadingRun` fixes which one. |
| `Observations.LeadingAtOrBefore` | brightsky/parsers.py:151-153 | Counts the leading entries dated at or before the timestamp; the next entry, if any, is later. |
| `Observations.LocateLeadingRun` | brightsky/parsers.py:151-154 | The scan binds the last entry of the leading run at or before the timestamp. With an empty run it keeps the previous binding. |
| `Observations.LocateSorted` | brightsky/parsers.py:151-154 | With increasing dates the scan yields the latest entry at or before the timestamp. It yields the previous binding iff every entry is later. |
| `Observations.LocateTwoEntries` | brightsky/parsers.py:151-154 | With two entries d1 < d2: rows before d1 keep the previous binding, rows from d1 up to d2 get the first location, and rows from d2 on get the second. |
| `Observations.LocateStopsEarly` | brightsky/parsers.py:151-153 | Out of order (dates 10 then 5), a row at 7 misses the entry dated 5. |
| `Observations.RowRecord` | brightsky/parsers.py:148-164 | A row's record has type `recent`, the product-file source and the station id. It also has `strptime` of the untrimmed MESS_DATUM, the location the scan leaves bound, and the row's elements. A row yields a record iff MESS_DATUM is present and parses, the scan leaves a location bound, and the elements parse. An unbound location raises `UnboundLocation`. |
| `Observations.EmitRows` | brightsky/parsers.py:148-164 | Yields one record per row until the first failing row. Each record is computed from the location bound by the record before it. The run completes iff every row yields. |
| `Observations.Emit` | brightsky/parsers.py:148-164 | The same loop for any step function, carrying the bound location from row to row. |
| `Observations.ParseRecords` | brightsky/parsers.py:139-164 | Without exactly one product file the parse raises before any row. With one, the product file opens and the parse yields what the row loop over its rows yields, starting with no location bound. |
| `Observations.ParseObservations` | brightsky/parsers.py:111-164 | Without a station id the parse raises `NoStationId` and yields nothing. With one, a missing metadata file raises `MissingMember` with nothing yielded, and a failing metadata row raises with nothing yielded. Otherwise the parse is the records parse of that station id and history. |
| `Observations.ObservationOutput` | brightsky/parsers.py:111-164 | With a station id, readable metadata and one product file, the parse yields exactly what the row loop over the product rows yields, located by the parsed history. |
| `Observations.ObservationHeader` | brightsky/parsers.py:155-164 | Every record of a parse has type `recent`, the product file as source and the matched station id. |
| `Observations.RowsHeader` | brightsky/parsers.py:155-158 | Every record of the row loop carries the type, source and station id. |
| `Observations.StaleLocation` | brightsky/parsers.py:151-161 | A row dated before every history entry reuses the previous record's location. |
| `Observations.UnboundFirstRow` | brightsky/parsers.py:151-159 | A first row dated before every entry raises `UnboundLocation` with nothing yielded. |
| `Observations.SortedHistoryLocates` | brightsky/parsers.py:151-161 | With increasing history dates, each record is located by the latest entry at or before its timestamp. |
| `Profiles.Cell` | brightsky/parsers.py:169 | `row[key]` is the cell, or `MissingColumn` iff the row lacks the column. |
| `Profiles.DecodeCell` | brightsky/parsers.py:168-171 | A cell is missing iff its trimmed text is `-999`. Otherwise it is `float()` of the untrimmed text, or `BadNumber`. |
| `Profiles.Scale` | brightsky/parsers.py:174-176 | A field without a factor is unchanged. For a factor field, a missing value raises `ConvertMissing`. A reading v becomes whole hundredths within 0.005 of v × factor. |
| `Profiles.ToKelvin` | brightsky/parsers.py:186-190 | Fields other than the kelvin field are unchanged. For the kelvin field, a missing value raises `ConvertMissing`. A reading v becomes whole hundredths within 0.005 of v + 273.15. |
| `Profiles.DecodeAll` | brightsky/parsers.py:167-173 | Succeeds iff every column decodes; value i is column i's. A failure is the first failing column's. |
| `Profiles.ScaleAll` | brightsky/parsers.py:174-176 | Succeeds iff every field scales; value i is field i's. A failure is the first failing field's. |
| `Profiles.KelvinAll` | brightsky/parsers.py:186-190 | Succeeds iff every field converts; value i is field i's. A failure is the first failing field's. |
| `Profiles.ParseElements` | brightsky/parsers.py:166-177 | A row's elements are one value per field, under the field names in profile order. |
| `Profiles.ElementsPointwise` | brightsky/parsers.py:166-190 | A row succeeds iff every field succeeds on its own. Field i then holds its own decoded, scaled and converted value. |
| `Profiles.DecodeFailureFirst` | brightsky/parsers.py:167-176 | A decode failure in the first pass is the row's error, whatever later conversions would do. |
| `Profiles.PlainField` | brightsky/parsers.py:168-171 | A field without conversion is missing iff its cell is `-999`, and is otherwise `float()` of the cell, unrounded. |
| `Profiles.ConvertingMissingFails` | brightsky/parsers.py:174-176 | A `-999` in a converting field fails the row. |
| `Profiles.FieldsIndependent` | brightsky/parsers.py:166-173 | Changing one column's cell changes no field that reads another column. |
| `Profiles.ScaleExact` | brightsky/parsers.py:174-176 | A reading in whole hundredths is scaled exactly: rounding changes nothing. |
| `Profiles.KelvinExact` | brightsky/parsers.py:189 | A reading in whole hundredths converts to exactly v + 273.15. |
| `Profiles.ScaleNearest` | brightsky/parsers.py:175-176 | No whole number of hundredths is nearer to v × factor than the scaled reading. |
| `Profiles.KelvinNearest` | brightsky/parsers.py:189 | No whole number of hundredths is nearer to v + 273.15 than the converted reading. |
| `Profiles.PressureValue` | brightsky/parsers.py:219-227 | A pressure reading in hPa given to whole hundredths comes out in Pa as exactly v × 100. |
| `Profiles.PressureRounded` | brightsky/parsers.py:219-227 | Any pressure reading v comes out in whole hundredths of a pascal, within 0.005 of v × 100. |
| `Profiles.SunshineValue` | brightsky/parsers.py:208-216 | A sunshine reading in minutes given to whole hundredths comes out in seconds as exactly v × 60. |
| `Profiles.SunshineRounded` | brightsky/parsers.py:208-216 | Any sunshine reading v comes out in whole hundredths of a second, within 0.005 of v × 60. |
| `Profiles.TemperatureValue` | brightsky/parsers.py:180-190 | A temperature in °C given to whole hundredths comes out in kelvin as exactly v + 273.15. |
| `Profiles.TemperatureRounded` | brightsky/parsers.py:186-190 | Any temperature reading comes out in whole hundredths of a kelvin, within 0.005 of v + 273.15. |
| `Profiles.PrecipitationUnrounded` | brightsky/parsers.py:193-197 | Precipitation is `float()` of its cell, unrounded. |
| `Profiles.WindUnrounded` | brightsky/parsers.py:200-205 | Wind speed and direction are `float()` of their cells, unrounded, in this order. |
| `Profiles.WindMissingSpeed` | tests/test_parsers.py:65-69 | A missing speed leaves the direction: the speed is None and the direction is its reading. |

## Left out

- The archive and document mechanics are not modelled: `zipfile`, `Selector`, CSS selection, `csv.DictReader`, `TextIOWrapper` and the latin-1 decoding. The model starts from decoded values:
  - a bulletin holds the timestamp axis, the source texts and the station blocks;
  - an archive is a list of named members, each with its CSV rows as column maps.
- `float()` and both `strptime` formats are parameters (`num`, `day`, `hour`). Timestamps are integers on one instant scale. These are foreign routines whose exact grammar the model does not restate.
- The forecast timestamp axis is given already parsed (`Bulletin.timestamps`). A time step that `dateutil.parser.parse` rejects, which raises before any record is yielded, is not modelled.
- Floating point is modelled as exact reals. `round(x, 2)` is rounding half to even of the exact value. IEEE double representation error (e.g. of 273.15) is not modelled.
- Parsing a token's first field takes the text before the first comma. CSV quoting inside a whitespace-free token is not modelled.
- `\d` matches ASCII digits only. Python also accepts other Unicode decimal digits.
- A cell Python reads as `None` (a short CSV row) is modelled as an absent key, which raises `MissingColumn`. In Python it raises `AttributeError`/`TypeError` instead.
- `Parser.__init__`, `download`, `DEFAULT_URL`, `cache_path`, the logging calls and `parse_timestamps` are left out. They are I/O, configuration or a foreign date parser.
- `Mosmix.ParseStation`: only the record count is stated on the function itself. The record contents are stated by `Mosmix.StationRecords` and `Mosmix.StationOk`.
- Generators are modelled eagerly. A `Stream` is everything yielded up to the raise; lazy consumption and partial iteration are not modelled.
- The conversion factors are integers folded into each profile's fields. The dict of `conversion_factors` is not modelled separately; every profile names its factor fields among its elements.

=== FILE: mosmix.dfy ===
/** The MOSMIX forecast parser: one KML bulletin holding a timestamp axis
    shared by every station and, per station, one whitespace-separated
    value series per forecast element. */
module Mosmix {
  import opened Results
  import opened Text
  import opened Records

  /** A <Forecast> node: its elementName attribute and its <value> text. */
  datatype ForecastNode = ForecastNode(elementName: string, value: string)

  /** A <Placemark> station block: the first <name> and <coordinates>
      texts, when there are any, and the <Forecast> nodes in document
      order. */
  datatype Placemark = Placemark(
    name: Option<string>,
    coordinates: Option<string>,
    forecasts: seq<ForecastNode>)

  /** The decoded KML document: the ForecastTimeSteps axis (as instants),
      the ProductID and IssueTime texts in document order, and the
      Placemark blocks in document order. */
  datatype Bulletin = Bulletin(
    timestamps: seq<int>,
    sourceTexts: seq<string>,
    placemarks: seq<Placemark>)

  /** A forecast element code and the record field it fills. */
  datatype Element = Element(code: string, column: string)

  const ForecastType := "forecast"

  /** The token that stands for a missing forecast value. */
  const MissingToken := "-"

  /** The element codes read from every station, in this order. */
  const Elements: seq<Element> := [
    Element("TTT", "temperature"),
    Element("DD", "wind_direction"),
    Element("FF", "wind_speed"),
    Element("RR1c", "precipitation"),
    Element("SunD1", "sunshine"),
    Element("PPPP", "pressure_msl")
  ]

  /** row[0] of csv.reader applied to one whitespace-free token. */
  function FirstField(token: string): string {
    Split(token, ',')[0]
  }

  /** One forecast token: missing exactly when its first field is the
      single dash; otherwise the number it parses to, or a failure. */
  function DecodeToken(num: string -> Option<real>, token: string): (r: Result<Option<real>>)
    ensures r == Ok(None) <==> FirstField(token) == MissingToken
    ensures r.Ok? && r.value.Some? ==> num(FirstField(token)) == r.value
    ensures r.Err? ==> FirstField(token) != MissingToken && num(FirstField(token)).None?
  {
    var field := FirstField(token);
    if field == MissingToken then Ok(None)
    else
      var v :- ToFloat(num, field);
      Ok(Some(v))
  }

  /** A token that starts with a dash but is longer and has no comma, such
      as -5.0, is never read as missing. */
  lemma NegativeIsNotMissing(num: string -> Option<real>, token: string)
    requires |token| > 1 && token[0] == '-' && ',' !in token
    ensures DecodeToken(num, token) != Ok(None)
  {
    assert Split(token, ',') == [token];
  }

  /** The value text of the first <Forecast> node for an element code. */
  function SeriesText(forecasts: seq<ForecastNode>, code: string): (r: Option<string>)
    ensures r.None? <==> forall i :: 0 <= i < |forecasts| ==> forecasts[i].elementName != code
    ensures r.Some? ==>
              exists i :: 0 <= i < |forecasts| && forecasts[i] == ForecastNode(code, r.value)
                          && forall j :: 0 <= j < i ==> forecasts[j].elementName != code
  {
    if |forecasts| == 0 then None
    else if forecasts[0].elementName == code then Some(forecasts[0].value)
    else
      var r := SeriesText(forecasts[1..], code);
      assert r.None? <==> forall i :: 1 <= i < |forecasts| ==> forecasts[i].elementName != code by {
        assert forall i :: 1 <= i < |forecasts| ==> forecasts[i] == forecasts[1..][i - 1];
      }
      assert r.Some? ==>
               exists i :: 0 <= i < |forecasts| && forecasts[i] == ForecastNode(code, r.value)
                           && forall j :: 0 <= j < i ==> forecasts[j].elementName != code by {
        if r.Some? {
          var i :| 0 <= i < |forecasts[1..]| && forecasts[1..][i] == ForecastNode(code, r.value)
                   && forall j :: 0 <= j < i ==> forecasts[1..][j].elementName != code;
          assert forecasts[i + 1] == ForecastNode(code, r.value);
          assert forall j :: 1 <= j < i + 1 ==> forecasts[j] == forecasts[1..][j - 1];
        }
      }
      r
  }

  /** The decoded series of one element of a station: every token decoded,
      and exactly as many values as there are timestamps. */
  function Series(num: string -> Option<real>, p: Placemark, e: Element, n: nat): (r: Result<seq<Option<real>>>)
    ensures r.Ok? ==> |r.value| == n
    ensures r.Ok? ==>
              && SeriesText(p.forecasts, e.code).Some?
              && var tokens := Words(SeriesText(p.forecasts, e.code).value);
                 |tokens| == n
                 && forall i :: 0 <= i < n ==> DecodeToken(num, tokens[i]) == Ok(r.value[i])
    ensures (SeriesText(p.forecasts, e.code).Some?
             && |Words(SeriesText(p.forecasts, e.code).value)| != n) ==> r.Err?
    ensures SeriesText(p.forecasts, e.code).None? ==> r == Err(MissingElement(e.code))
    ensures r.Ok? <==>
              && SeriesText(p.forecasts, e.code).Some?
              && var tokens := Words(SeriesText(p.forecasts, e.code).value);
                 |tokens| == n && forall i :: 0 <= i < n ==> DecodeToken(num, tokens[i]).Ok?
  {
    var text :- match SeriesText(p.forecasts, e.code)
      case None => Err(MissingElement(e.code))
      case Some(t) => Ok(t);
    var values :- DecodeTokens(num, Words(text));
    if |values| != n then Err(LengthMismatch(e.column, |values|, n))
    else Ok(values)
  }

  /** The list comprehension over the tokens of a series: every token
      decoded in order; the first raise ends it. */
  function DecodeTokens(num: string -> Option<real>, tokens: seq<string>): (r: Result<seq<Option<real>>>)
    ensures r.Ok? <==> forall i :: 0 <= i < |tokens| ==> DecodeToken(num, tokens[i]).Ok?
    ensures r.Ok? ==> |r.value| == |tokens|
                      && forall i :: 0 <= i < |tokens| ==> DecodeToken(num, tokens[i]) == Ok(r.value[i])
    ensures r.Err? ==> exists i :: 0 <= i < |tokens| && DecodeToken(num, tokens[i]) == Err(r.error)
                                   && forall j :: 0 <= j < i ==> DecodeToken(num, tokens[j]).Ok?
  {
    if |tokens| == 0 then Ok([])
    else
      var v :- DecodeToken(num, tokens[0]);
      var vs :- DecodeTokens(num, tokens[1..]);
      Ok([v] + vs)
  }

  /** The element loop of a station: the series of every element in
      order, as the given series reader reads it; the first raise ends
      it. */
  function Columns(es: seq<Element>, series: Element -> Result<seq<Option<real>>>)
    : (r: Result<seq<seq<Option<real>>>>)
    ensures r.Ok? <==> forall j :: 0 <= j < |es| ==> series(es[j]).Ok?
    ensures r.Ok? ==> |r.value| == |es| && forall j :: 0 <= j < |es| ==> series(es[j]) == Ok(r.value[j])
    ensures r.Err? ==> exists j :: 0 <= j < |es| && series(es[j]) == Err(r.error)
                                   && forall k :: 0 <= k < j ==> series(es[k]).Ok?
  {
    if |es| == 0 then Ok([])
    else
      var c :- series(es[0]);
      var cs :- Columns(es[1..], series);
      Ok([c] + cs)
  }

  /** parse_station for the element table es (the class's ELEMENTS): the
      station block turned into one record per timestamp index. */
  function ParseStation(num: string -> Option<real>, es: seq<Element>, p: Placemark, timestamps: seq<int>,
                        source: string)
    : (r: Result<seq<Record>>)
    ensures r.Ok? ==> |r.value| == |timestamps|
  {
    var coordinates :- match p.coordinates
      case None => Err(MissingCoordinates)
      case Some(c) => Ok(c);
    var parts := Split(coordinates, ',');
    if |parts| != 3 then Err(CoordinateCount(|parts|))
    else
      var columns :- Columns(es, e => Series(num, p, e, |timestamps|));
      var base :- BaseRecord(num, p.name, parts, source);
      Ok(Transpose(es, columns, timestamps, base))
  }

  /** base_record: the forecast header of a station, with float() of the
      three coordinate parts in order; the first becomes lat. */
  function BaseRecord(num: string -> Option<real>, name: Option<string>, parts: seq<string>, source: string)
    : (r: Result<Record>)
    requires |parts| == 3
    ensures r.Ok? <==> ToFloat(num, parts[0]).Ok? && ToFloat(num, parts[1]).Ok? && ToFloat(num, parts[2]).Ok?
    ensures r.Ok? ==>
              && r.value.observationType == ForecastType
              && r.value.source == source
              && r.value.stationId == name
              && ToFloat(num, parts[0]) == Ok(r.value.lat)
              && ToFloat(num, parts[1]) == Ok(r.value.lon)
              && ToFloat(num, parts[2]) == Ok(r.value.height)
  {
    var lat :- ToFloat(num, parts[0]);
    var lon :- ToFloat(num, parts[1]);
    var height :- ToFloat(num, parts[2]);
    Ok(Record(ForecastType, source, name, lat, lon, height, 0, []))
  }

  /** zip(*columns): record i is the base record with timestamps[i] and the
      i-th value of every element column. */
  function Transpose(es: seq<Element>, columns: seq<seq<Option<real>>>, timestamps: seq<int>, base: Record)
    : (rs: seq<Record>)
    requires |columns| == |es|
    requires forall j :: 0 <= j < |columns| ==> |columns[j]| == |timestamps|
    ensures |rs| == |timestamps|
    ensures forall i :: 0 <= i < |rs| ==>
              && rs[i].observationType == base.observationType
              && rs[i].source == base.source
              && rs[i].stationId == base.stationId
              && rs[i].lat == base.lat && rs[i].lon == base.lon && rs[i].height == base.height
              && rs[i].timestamp == timestamps[i]
              && |rs[i].values| == |es|
    ensures forall i, j :: 0 <= i < |rs| && 0 <= j < |es| ==> rs[i].values[j] == (es[j].column, columns[j][i])
  {
    seq(|timestamps|, i requires 0 <= i < |timestamps| =>
      base.(timestamp := timestamps[i],
            values := seq(|es|, j requires 0 <= j < |es| => (es[j].column, columns[j][i]))))
  }

  /** Every record of a station carries the station's header fields, its
      own timestamp, and the i-th decoded value of every element series;
      the field called lat holds the first coordinate component, lon the
      second and height the third. */
  lemma StationRecords(num: string -> Option<real>, es: seq<Element>, p: Placemark, timestamps: seq<int>,
                       source: string)
    requires ParseStation(num, es, p, timestamps, source).Ok?
    ensures var rs := ParseStation(num, es, p, timestamps, source).value;
            forall i :: 0 <= i < |rs| ==>
              && rs[i].observationType == ForecastType
              && rs[i].source == source
              && rs[i].stationId == p.name
              && rs[i].timestamp == timestamps[i]
              && |rs[i].values| == |es|
    ensures forall j :: 0 <= j < |es| ==> Series(num, p, es[j], |timestamps|).Ok?
    ensures var rs := ParseStation(num, es, p, timestamps, source).value;
            forall i, j :: 0 <= i < |rs| && 0 <= j < |es| ==>
              rs[i].values[j] == (es[j].column, Series(num, p, es[j], |timestamps|).value[i])
    ensures var rs := ParseStation(num, es, p, timestamps, source).value;
            && p.coordinates.Some?
            && var parts := Split(p.coordinates.value, ',');
               && |parts| == 3
               && forall i :: 0 <= i < |rs| ==>
                    && ToFloat(num, parts[0]) == Ok(rs[i].lat)
                    && ToFloat(num, parts[1]) == Ok(rs[i].lon)
                    && ToFloat(num, parts[2]) == Ok(rs[i].height)
  {
    var parts := Split(p.coordinates.value, ',');
    var columns := Columns(es, e => Series(num, p, e, |timestamps|)).value;
    var base := BaseRecord(num, p.name, parts, source).value;
    assert ParseStation(num, es, p, timestamps, source).value == Transpose(es, columns, timestamps, base);
  }

  /** A station yields records exactly when its coordinates are three
      numbers and every element series decodes to one value per
      timestamp. */
  lemma StationOk(num: string -> Option<real>, es: seq<Element>, p: Placemark, timestamps: seq<int>,
                  source: string)
    ensures ParseStation(num, es, p, timestamps, source).Ok?
            <==> && p.coordinates.Some?
                 && var parts := Split(p.coordinates.value, ',');
                    && |parts| == 3
                    && (forall j :: 0 <= j < |es| ==> Series(num, p, es[j], |timestamps|).Ok?)
                    && ToFloat(num, parts[0]).Ok?
                    && ToFloat(num, parts[1]).Ok?
                    && ToFloat(num, parts[2]).Ok?
  {
  }

  /** A series with more or fewer tokens than timestamps makes the whole
      station fail: none of its records is produced. */
  lemma LengthMismatchFailsStation(num: string -> Option<real>, es: seq<Element>, p: Placemark,
                                   timestamps: seq<int>, source: string, j: nat)
    requires j < |es|
    requires SeriesText(p.forecasts, es[j].code).Some?
    requires |Words(SeriesText(p.forecasts, es[j].code).value)| != |timestamps|
    ensures ParseStation(num, es, p, timestamps, source).Err?
  {
    assert Series(num, p, es[j], |timestamps|).Err?;
    StationOk(num, es, p, timestamps, source);
  }

  /** The source string: the ProductID and IssueTime texts joined by ':'. */
  function Source(texts: seq<string>): (r: string)
    ensures |texts| > 0 && (forall i :: 0 <= i < |texts| ==> ':' !in texts[i]) ==> Split(r, ':') == texts
  {
    if |texts| > 0 && (forall i :: 0 <= i < |texts| ==> ':' !in texts[i]) then
      SplitJoin(texts, ':');
      Join(texts, ':')
    else Join(texts, ':')
  }

  /** With one ProductID and one IssueTime text, the source is
      "<ProductID>:<IssueTime>", and the product id is its first
      ':'-separated piece when it has no colon itself. */
  lemma SourceOfProduct(productId: string, issueTime: string)
    ensures Source([productId, issueTime]) == productId + ":" + issueTime
    ensures ':' !in productId ==> Split(Source([productId, issueTime]), ':')[0] == productId
  {
    assert Source([productId, issueTime]) == productId + [':'] + Join([issueTime], ':');
    if ':' !in productId {
      SplitAfterPiece(productId, issueTime, ':');
    }
  }

  /** The per-station results of a bulletin, station by station. */
  function StationResults(num: string -> Option<real>, b: Bulletin): (rs: seq<Result<seq<Record>>>)
    ensures |rs| == |b.placemarks|
    ensures forall k :: 0 <= k < |rs| ==>
              rs[k] == ParseStation(num, Elements, b.placemarks[k], b.timestamps, Source(b.sourceTexts))
  {
    seq(|b.placemarks|, k requires 0 <= k < |b.placemarks| =>
      ParseStation(num, Elements, b.placemarks[k], b.timestamps, Source(b.sourceTexts)))
  }

  /** MOSMIXParser.parse: the archive must hold exactly one member; then the
      records of every station, station after station, until a station
      fails. */
  function Parse(num: string -> Option<real>, kmz: seq<Bulletin>): (s: Stream)
    ensures |kmz| != 1 ==> s == Stream([], Some(UnexpectedZipContent(|kmz|)))
    ensures |kmz| == 1 ==> (s.failure.None? <==> AllOk(StationResults(num, kmz[0])))
    ensures |kmz| == 1 && s.failure.Some? ==>
              exists k :: 0 <= k < |kmz[0].placemarks| && StationResults(num, kmz[0])[k] == Err(s.failure.value)
                          && AllOk(StationResults(num, kmz[0])[..k])
                          && s.records == Flatten(StationResults(num, kmz[0])[..k])
  {
    if |kmz| != 1 then Stream([], Some(UnexpectedZipContent(|kmz|)))
    else Drain(StationResults(num, kmz[0]))
  }

  /** A complete forecast parse yields |stations| * |timestamps| records:
      record i of station k at index k * |timestamps| + i. */
  lemma ForecastOutput(num: string -> Option<real>, kmz: seq<Bulletin>)
    requires |kmz| == 1
    requires Parse(num, kmz).failure.None?
    ensures |Parse(num, kmz).records| == |kmz[0].placemarks| * |kmz[0].timestamps|
    ensures forall k, i :: 0 <= k < |kmz[0].placemarks| && 0 <= i < |kmz[0].timestamps| ==>
              && Slot(k, |kmz[0].timestamps|, i) < |Parse(num, kmz).records|
              && Parse(num, kmz).records[Slot(k, |kmz[0].timestamps|, i)]
                 == StationResults(num, kmz[0])[k].value[i]
  {
    var b := kmz[0];
    var parts := StationResults(num, b);
    var n := |b.timestamps|;
    var s := Drain(parts);
    assert Parse(num, kmz) == s;
    assert AllOk(parts) && s.records == Flatten(parts);
    forall k | 0 <= k < |parts| ensures |parts[k].value| == n {
      assert parts[k] == ParseStation(num, Elements, b.placemarks[k], b.timestamps, Source(b.sourceTexts));
    }
    FlattenUniform(parts, n);
  }

  /** Every record of a forecast parse, complete or not, is a forecast
      record carrying the bulletin's source. */
  lemma ForecastHeader(num: string -> Option<real>, kmz: seq<Bulletin>)
    requires |kmz| == 1
    ensures forall r :: r in Parse(num, kmz).records ==>
              r.source == Source(kmz[0].sourceTexts) && r.observationType == ForecastType
  {
    var b := kmz[0];
    var parts := StationResults(num, b);
    var s := Drain(parts);
    var prefix := parts;
    if s.failure.Some? {
      var k :| 0 <= k < |parts| && parts[k] == Err(s.failure.value)
               && AllOk(parts[..k]) && s.records == Flatten(parts[..k]);
      prefix := parts[..k];
    }
    assert AllOk(prefix) && s.records == Flatten(prefix);
    assert forall q :: 0 <= q < |prefix| ==> prefix[q] == parts[q];
    forall r | r in s.records
      ensures r.source == Source(b.sourceTexts) && r.observationType == ForecastType
    {
      var q, i := FlattenMember(prefix, r);
      StationRecords(num, Elements, b.placemarks[q], b.timestamps, Source(b.sourceTexts));
    }
  }

  /** When station k fails, the parse fails and none of station k's
      records (nor any later station's) are produced. */
  lemma FailedStationYieldsNothing(num: string -> Option<real>, kmz: seq<Bulletin>, k: nat)
    requires |kmz| == 1
    requires k < |kmz[0].placemarks|
    requires ParseStation(num, Elements, kmz[0].placemarks[k], kmz[0].timestamps, Source(kmz[0].sourceTexts)).Err?
    ensures Parse(num, kmz).failure.Some?
    ensures |Parse(num, kmz).records| <= Slot(k, |kmz[0].timestamps|, 0)
    ensures exists j :: 0 <= j <= k && AllOk(StationResults(num, kmz[0])[..j])
                        && Parse(num, kmz).records == Flatten(StationResults(num, kmz[0])[..j])
  {
    var b := kmz[0];
    var parts := StationResults(num, b);
    forall q | 0 <= q < |parts| && parts[q].Ok? ensures |parts[q].value| == |b.timestamps| {
    }
    DrainStopsBefore(parts, |b.timestamps|, k);
    assert Parse(num, kmz) == Drain(parts);
  }
}

=== FILE: observations.dfy ===
/** The observations parser: an archive holding one station's geography
    metadata and one product CSV, turned into one record per CSV row, each
    located by the station's location history. */
module Observations {
  import opened Results
  import opened Text
  import opened OrderedMap
  import opened Records
  import opened Profiles

  /** A history entry's value, in the order the parser unpacks it. */
  datatype Location = Location(lat: real, lon: real, height: real)

  /** One archive entry: its name and, once decoded, its CSV rows. */
  datatype Member = Member(name: string, rows: seq<Row>)

  const MetadataPrefix := "Metadaten_Geographie_"
  const MetadataSuffix := ".txt"
  const ProductPrefix := "produkt_"
  const ObservationType := "recent"
  const SourcePrefix := "Observations:Recent:"
  const DateColumn := "von_datum"
  const LonColumn := "Geogr.Laenge"
  const LatColumn := "Geogr.Breite"
  const HeightColumn := "Stationshoehe"
  const TimestampColumn := "MESS_DATUM"

  /** zf.namelist(): the entry names in archive order, repeats included. */
  function Names(members: seq<Member>): (ns: seq<string>)
    ensures |ns| == |members|
    ensures forall i :: 0 <= i < |ns| ==> ns[i] == members[i].name
  {
    seq(|members|, i requires 0 <= i < |members| => members[i].name)
  }

  predicate IsDigit(c: char) {
    '0' <= c <= '9'
  }

  predicate AllDigits(s: string) {
    forall i :: 0 <= i < |s| ==> IsDigit(s[i])
  }

  /** The number of leading digits of s. */
  function DigitRun(s: string): (n: nat)
    ensures n <= |s| && AllDigits(s[..n])
    ensures n < |s| ==> !IsDigit(s[n])
  {
    if |s| > 0 && IsDigit(s[0]) then 1 + DigitRun(s[1..]) else 0
  }

  lemma {:induction false} DigitRunOf(digits: string, rest: string)
    requires AllDigits(digits)
    requires |rest| > 0 ==> !IsDigit(rest[0])
    ensures DigitRun(digits + rest) == |digits|
    decreases |digits|
  {
    if |digits| > 0 {
      assert (digits + rest)[1..] == digits[1..] + rest;
      DigitRunOf(digits[1..], rest);
    } else {
      assert digits + rest == rest;
    }
  }

  /** re.match(r'Metadaten_Geographie_(\d+)\.txt', name).group(1): anchored
      at the start of the name only. The greedy digit run is followed by
      '.', which is no digit, so only the maximal run can match. */
  function MatchStationId(name: string): (r: Option<string>)
    ensures r.Some? ==> |r.value| > 0 && AllDigits(r.value) && StartsWith(name, MetadataPrefix)
  {
    if !StartsWith(name, MetadataPrefix) then None
    else
      var rest := name[|MetadataPrefix|..];
      var n := DigitRun(rest);
      if n > 0 && StartsWith(rest[n..], MetadataSuffix) then Some(rest[..n]) else None
  }

  /** A match is a non-empty run of digits between the prefix and ".txt"
      at the start of the name. */
  lemma MatchSound(name: string)
    requires MatchStationId(name).Some?
    ensures var id := MatchStationId(name).value;
            |id| > 0 && AllDigits(id) && StartsWith(name, MetadataPrefix + id + MetadataSuffix)
  {
    var rest := name[|MetadataPrefix|..];
    var n := DigitRun(rest);
    var id := rest[..n];
    var whole := MetadataPrefix + id + MetadataSuffix;
    assert name[..|whole|] == name[..|MetadataPrefix|] + rest[..n] + rest[n..][..|MetadataSuffix|];
  }

  /** Every name that starts with the prefix, a run of digits and ".txt"
      matches, whatever follows, and gives back exactly those digits. */
  lemma MatchComplete(id: string, tail: string)
    requires |id| > 0 && AllDigits(id)
    ensures MatchStationId(MetadataPrefix + id + MetadataSuffix + tail) == Some(id)
  {
    var name := MetadataPrefix + id + MetadataSuffix + tail;
    assert name[..|MetadataPrefix|] == MetadataPrefix;
    var rest := name[|MetadataPrefix|..];
    assert rest == id + (MetadataSuffix + tail);
    DigitRunOf(id, MetadataSuffix + tail);
    assert rest[|id|..] == MetadataSuffix + tail;
    assert rest[..|id|] == id;
  }

  /** parse_station_id: the id of the first name that matches. */
  function ParseStationId(names: seq<string>): (r: Result<string>)
    ensures r.Err? <==> forall i :: 0 <= i < |names| ==> MatchStationId(names[i]).None?
    ensures r.Err? ==> r.error == NoStationId
    ensures r.Ok? ==>
              exists i :: 0 <= i < |names| && MatchStationId(names[i]) == Some(r.value)
                          && forall j :: 0 <= j < i ==> MatchStationId(names[j]).None?
  {
    FirstMatchFrom(names, MatchStationId, 0)
  }

  /** The loop of parse_station_id from the name at position k on, for any
      pattern. */
  function FirstMatchFrom(names: seq<string>, pattern: string -> Option<string>, k: nat): (r: Result<string>)
    requires k <= |names|
    ensures r.Err? <==> forall i :: k <= i < |names| ==> pattern(names[i]).None?
    ensures r.Err? ==> r.error == NoStationId
    ensures r.Ok? ==>
              exists i :: k <= i < |names| && pattern(names[i]) == Some(r.value)
                          && forall j :: k <= j < i ==> pattern(names[j]).None?
    decreases |names| - k
  {
    if k == |names| then Err(NoStationId)
    else
      match pattern(names[k])
      case Some(id) => Ok(id)
      case None => FirstMatchFrom(names, pattern, k + 1)
  }

  /** zf.open(name): the rows of the last entry with that name. */
  function OpenMember(members: seq<Member>, name: string): (r: Result<seq<Row>>)
    ensures r.Err? <==> forall i :: 0 <= i < |members| ==> members[i].name != name
    ensures r.Err? ==> r.error == MissingMember(name)
    ensures r.Ok? ==>
              exists i :: 0 <= i < |members| && members[i] == Member(name, r.value)
                          && forall j :: i < j < |members| ==> members[j].name != name
  {
    if |members| == 0 then Err(MissingMember(name))
    else
      var last := members[|members| - 1];
      if last.name == name then Ok(last.rows)
      else
        var r := OpenMember(members[..|members| - 1], name);
        assert forall i :: 0 <= i < |members| - 1 ==> members[..|members| - 1][i] == members[i];
        r
  }

  /** The names that start with "produkt_", in archive order. */
  function ProductNames(names: seq<string>): (ps: seq<string>)
    ensures forall x :: x in ps ==> x in names && StartsWith(x, ProductPrefix)
  {
    if |names| == 0 then []
    else (if StartsWith(names[0], ProductPrefix) then [names[0]] else []) + ProductNames(names[1..])
  }

  /** Entry i is the one and only product entry. */
  predicate OnlyProduct(names: seq<string>, i: int) {
    && 0 <= i < |names|
    && StartsWith(names[i], ProductPrefix)
    && forall j :: 0 <= j < |names| && j != i ==> !StartsWith(names[j], ProductPrefix)
  }

  /** The product file name: there must be exactly one product entry. */
  function ProductFile(names: seq<string>): (r: Result<string>)
    ensures r.Ok? ==> StartsWith(r.value, ProductPrefix) && r.value in names
    ensures r.Err? ==> r.error == UnexpectedProductCount(|ProductNames(names)|)
  {
    var ps := ProductNames(names);
    if |ps| != 1 then Err(UnexpectedProductCount(|ps|)) else Ok(ps[0])
  }

  /** The product list is empty exactly when no entry is a product entry. */
  lemma {:induction false} NoProducts(names: seq<string>)
    ensures ProductNames(names) == [] <==> forall j :: 0 <= j < |names| ==> !StartsWith(names[j], ProductPrefix)
  {
    if |names| > 0 {
      NoProducts(names[1..]);
      assert forall j :: 1 <= j < |names| ==> names[j] == names[1..][j - 1];
    }
  }

  /** The product file is found exactly when one entry, and only one, is a
      product entry (a repeated name counts twice); it is that entry. */
  lemma {:induction false} ProductFileUnique(names: seq<string>)
    ensures ProductFile(names).Ok? <==> exists i :: OnlyProduct(names, i)
    ensures forall i :: OnlyProduct(names, i) ==> ProductFile(names) == Ok(names[i])
  {
    if |names| > 0 {
      if StartsWith(names[0], ProductPrefix) {
        NoProducts(names[1..]);
        ProductFirst(names);
      } else {
        ProductFileUnique(names[1..]);
        ProductLater(names);
      }
    }
  }

  /** When the first entry is a product entry, it is the product file
      exactly when no later entry is one. */
  lemma ProductFirst(names: seq<string>)
    requires |names| > 0 && StartsWith(names[0], ProductPrefix)
    requires ProductNames(names[1..]) == []
             <==> forall j :: 0 <= j < |names[1..]| ==> !StartsWith(names[1..][j], ProductPrefix)
    ensures ProductFile(names).Ok? <==> exists i :: OnlyProduct(names, i)
    ensures forall i :: OnlyProduct(names, i) ==> ProductFile(names) == Ok(names[i])
  {
    var tail := names[1..];
    assert ProductNames(names) == [names[0]] + ProductNames(tail);
    assert forall j :: 1 <= j < |names| ==> names[j] == tail[j - 1];
    if ProductFile(names).Ok? {
      assert OnlyProduct(names, 0);
    }
    forall i | OnlyProduct(names, i) ensures i == 0 {
    }
  }

  /** When the first entry is no product entry, the product file is that
      of the later entries. */
  lemma ProductLater(names: seq<string>)
    requires |names| > 0 && !StartsWith(names[0], ProductPrefix)
    requires ProductFile(names[1..]).Ok? <==> exists i :: OnlyProduct(names[1..], i)
    requires forall i :: OnlyProduct(names[1..], i) ==> ProductFile(names[1..]) == Ok(names[1..][i])
    ensures ProductFile(names).Ok? <==> exists i :: OnlyProduct(names, i)
    ensures forall i :: OnlyProduct(names, i) ==> ProductFile(names) == Ok(names[i])
  {
    var tail := names[1..];
    assert ProductNames(names) == ProductNames(tail);
    assert forall j :: 1 <= j < |names| ==> names[j] == tail[j - 1];
    forall i | OnlyProduct(names, i) ensures OnlyProduct(tail, i - 1) {
      assert i != 0;
    }
    forall i | OnlyProduct(tail, i) ensures OnlyProduct(names, i + 1) {
    }
  }

  /** The date a number of days/hours text stands for, as the parser's
      strptime call reads it. */
  function ToTime(parse: string -> Option<int>, text: string): (r: Result<int>)
    ensures r.Ok? <==> parse(text).Some?
    ensures r.Ok? ==> r.value == parse(text).value
    ensures r.Err? ==> r.error == BadTimestamp(text)
  {
    match parse(text)
    case Some(t) => Ok(t)
    case None => Err(BadTimestamp(text))
  }

  /** float() of Geogr.Laenge, Geogr.Breite and Stationshoehe, in this
      order; the first becomes lat. */
  function ReadLocation(row: Row, num: string -> Option<real>): (r: Result<Location>)
    ensures r.Ok? ==>
              && LonColumn in row && num(row[LonColumn]) == Some(r.value.lat)
              && LatColumn in row && num(row[LatColumn]) == Some(r.value.lon)
              && HeightColumn in row && num(row[HeightColumn]) == Some(r.value.height)
    ensures r.Ok? <==>
              && LonColumn in row && num(row[LonColumn]).Some?
              && LatColumn in row && num(row[LatColumn]).Some?
              && HeightColumn in row && num(row[HeightColumn]).Some?
  {
    var first :- Cell(row, LonColumn);
    var lat :- ToFloat(num, first);
    var second :- Cell(row, LatColumn);
    var lon :- ToFloat(num, second);
    var third :- Cell(row, HeightColumn);
    var height :- ToFloat(num, third);
    Ok(Location(lat, lon, height))
  }

  /** One metadata row: strptime of the trimmed von_datum, then its
      location. */
  function HistoryEntry(row: Row, num: string -> Option<real>, day: string -> Option<int>)
    : (r: Result<(int, Location)>)
    ensures r.Ok? ==> DateColumn in row && day(Strip(row[DateColumn])) == Some(r.value.0)
    ensures r.Ok? ==> ReadLocation(row, num) == Ok(r.value.1)
    ensures DateColumn !in row ==> r == Err(MissingColumn(DateColumn))
    ensures r.Ok? <==> DateColumn in row && day(Strip(row[DateColumn])).Some? && ReadLocation(row, num).Ok?
  {
    var text :- Cell(row, DateColumn);
    var date :- ToTime(day, Strip(text));
    var location :- ReadLocation(row, num);
    Ok((date, location))
  }

  /** The metadata rows read one by one; the first raise ends the reading. */
  function HistoryEntries(rows: seq<Row>, num: string -> Option<real>, day: string -> Option<int>)
    : (r: Result<seq<(int, Location)>>)
    ensures r.Ok? <==> forall i :: 0 <= i < |rows| ==> HistoryEntry(rows[i], num, day).Ok?
    ensures r.Ok? ==> |r.value| == |rows|
                      && forall i :: 0 <= i < |rows| ==> HistoryEntry(rows[i], num, day) == Ok(r.value[i])
  {
    if |rows| == 0 then Ok([])
    else
      var e :- HistoryEntry(rows[0], num, day);
      var es :- HistoryEntries(rows[1..], num, day);
      Ok([e] + es)
  }

  /** parse_lat_lon_history: history[date] = location for every row in
      order, so a repeated date keeps its first position and takes its last
      location. */
  function ParseHistory(rows: seq<Row>, num: string -> Option<real>, day: string -> Option<int>)
    : (r: Result<Assoc<int, Location>>)
    ensures r.Ok? <==> forall i :: 0 <= i < |rows| ==> HistoryEntry(rows[i], num, day).Ok?
    ensures r.Ok? ==> DistinctKeys(r.value)
  {
    var entries :- HistoryEntries(rows, num, day);
    Ok(FromPairs(entries))
  }

  /** A date of the history holds the location of the last metadata row
      with that date. */
  lemma HistoryLastWins(rows: seq<Row>, num: string -> Option<real>, day: string -> Option<int>, i: nat)
    requires ParseHistory(rows, num, day).Ok?
    requires i < |rows|
    requires forall j :: i < j < |rows| ==> HistoryEntry(rows[j], num, day).value.0 != HistoryEntry(rows[i], num, day).value.0
    ensures Get(ParseHistory(rows, num, day).value, HistoryEntry(rows[i], num, day).value.0)
            == Some(HistoryEntry(rows[i], num, day).value.1)
  {
    var entries := HistoryEntries(rows, num, day).value;
    FromPairsLastWins(entries, i);
  }

  /** The for-loop over lat_lon_history.items(): walk the entries in order,
      binding each one whose date is not after ts, and stop at the first
      later date. With nothing bound the previous binding stays. */
  function Locate(history: Assoc<int, Location>, ts: int, prev: Option<Location>): (r: Option<Location>)
    ensures r == prev || exists i :: 0 <= i < |history| && history[i].0 <= ts && r == Some(history[i].1)
  {
    if |history| == 0 || history[0].0 > ts then prev
    else
      var r := Locate(history[1..], ts, Some(history[0].1));
      assert r == Some(history[0].1) || exists i :: 1 <= i < |history| && history[i].0 <= ts && r == Some(history[i].1) by {
        if r != Some(history[0].1) {
          var i :| 0 <= i < |history[1..]| && history[1..][i].0 <= ts && r == Some(history[1..][i].1);
          assert history[i + 1] == history[1..][i];
        }
      }
      r
  }

  /** The number of leading history entries dated at or before ts. */
  function LeadingAtOrBefore(history: Assoc<int, Location>, ts: int): (n: nat)
    ensures n <= |history|
    ensures forall i :: 0 <= i < n ==> history[i].0 <= ts
    ensures n < |history| ==> history[n].0 > ts
  {
    if |history| == 0 || history[0].0 > ts then 0 else 1 + LeadingAtOrBefore(history[1..], ts)
  }

  /** The scan binds the last entry of the leading run of entries dated at
      or before ts, or keeps the previous binding when that run is empty;
      entries after the first later date are never looked at. */
  lemma {:induction false} LocateLeadingRun(history: Assoc<int, Location>, ts: int, prev: Option<Location>)
    ensures var n := LeadingAtOrBefore(history, ts);
            Locate(history, ts, prev) == if n == 0 then prev else Some(history[n - 1].1)
  {
    if |history| > 0 && history[0].0 <= ts {
      LocateLeadingRun(history[1..], ts, Some(history[0].1));
    }
  }

  /** Entry i is the latest entry dated at or before ts. */
  predicate Latest(history: Assoc<int, Location>, ts: int, i: int) {
    && 0 <= i < |history|
    && history[i].0 <= ts
    && forall j :: 0 <= j < |history| && history[j].0 <= ts ==> history[j].0 <= history[i].0
  }

  /** With dates in increasing order the scan finds the location valid at
      ts: the latest entry dated at or before ts, and the previous binding
      only when every entry is later than ts. */
  lemma LocateSorted(history: Assoc<int, Location>, ts: int, prev: Option<Location>)
    requires StrictlyIncreasing(history)
    ensures (forall i :: 0 <= i < |history| ==> history[i].0 > ts) ==> Locate(history, ts, prev) == prev
    ensures forall i :: Latest(history, ts, i) ==> Locate(history, ts, prev) == Some(history[i].1)
  {
    LocateLeadingRun(history, ts, prev);
    var n := LeadingAtOrBefore(history, ts);
    forall i | Latest(history, ts, i) ensures i == n - 1 {
      assert i < n;
      assert history[n - 1].0 <= history[i].0;
    }
    if n > 0 {
      assert history[0].0 <= ts;
    }
  }

  /** Two entries in date order, d1 before d2: a row before d1 keeps the
      previous binding, a row from d1 up to but not including d2 gets the
      first location, and a row at or after d2 the second. */
  lemma LocateTwoEntries(d1: int, a: Location, d2: int, b: Location, ts: int, prev: Option<Location>)
    requires d1 < d2
    ensures ts < d1 ==> Locate([(d1, a), (d2, b)], ts, prev) == prev
    ensures d1 <= ts < d2 ==> Locate([(d1, a), (d2, b)], ts, prev) == Some(a)
    ensures d2 <= ts ==> Locate([(d1, a), (d2, b)], ts, prev) == Some(b)
  {
    var h := [(d1, a), (d2, b)];
    assert h[1..] == [(d2, b)] && h[1..][1..] == [];
    if d2 <= ts {
      assert Locate(h[1..], ts, Some(a)) == Locate([], ts, Some(b));
    }
  }

  /** Out of date order, the scan stops at the first later date and misses
      an earlier date further on: with entries dated 10 and then 5, a row at
      7 keeps the previous binding although 5 is at or before 7. */
  lemma LocateStopsEarly(a: Location, b: Location, prev: Option<Location>)
    ensures Locate([(10, a), (5, b)], 7, prev) == prev
  {
  }

  /** The location a record carries. */
  function LocationOf(r: Record): Location {
    Location(r.lat, r.lon, r.height)
  }

  /** One product row: strptime of MESS_DATUM (untrimmed), the location the
      scan leaves bound, then the row's elements. */
  function RowRecord(row: Row, history: Assoc<int, Location>, prev: Option<Location>, stationId: string,
                     filename: string, profile: Profile, num: string -> Option<real>, hour: string -> Option<int>)
    : (r: Result<Record>)
    ensures r.Ok? ==>
              && r.value.observationType == ObservationType
              && r.value.source == SourcePrefix + filename
              && r.value.stationId == Some(stationId)
              && TimestampColumn in row && hour(row[TimestampColumn]) == Some(r.value.timestamp)
              && Locate(history, r.value.timestamp, prev) == Some(LocationOf(r.value))
              && ParseElements(profile, row, num) == Ok(r.value.values)
    ensures (r.Err? && TimestampColumn in row && hour(row[TimestampColumn]).Some?
             && Locate(history, hour(row[TimestampColumn]).value, prev).None?) ==> r.error == UnboundLocation
    ensures r.Ok? <==>
              && TimestampColumn in row && hour(row[TimestampColumn]).Some?
              && Locate(history, hour(row[TimestampColumn]).value, prev).Some?
              && ParseElements(profile, row, num).Ok?
  {
    var text :- Cell(row, TimestampColumn);
    var ts :- ToTime(hour, text);
    var loc :- match Locate(history, ts, prev)
      case None => Err(UnboundLocation)
      case Some(l) => Ok(l);
    var elements :- ParseElements(profile, row, num);
    Ok(Record(ObservationType, SourcePrefix + filename, Some(stationId), loc.lat, loc.lon, loc.height, ts, elements))
  }

  /** The binding a row starts from: the given one for the first row, the
      location of the record before it otherwise. */
  function Before(records: seq<Record>, i: nat, prev: Option<Location>): Option<Location>
    requires i <= |records|
  {
    if i == 0 then prev else Some(LocationOf(records[i - 1]))
  }

  /** The loop over the product rows, yielding one record per row and
      carrying the bound location from row to row; the first failing row
      ends it. */
  function EmitRows(rows: seq<Row>, history: Assoc<int, Location>, prev: Option<Location>, stationId: string,
                    filename: string, profile: Profile, num: string -> Option<real>, hour: string -> Option<int>)
    : (s: Stream)
    ensures |s.records| <= |rows|
    ensures s.failure.None? <==> |s.records| == |rows|
    ensures forall i :: 0 <= i < |s.records| ==>
              RowRecord(rows[i], history, Before(s.records, i, prev), stationId, filename, profile, num, hour)
              == Ok(s.records[i])
    ensures s.failure.Some? ==>
              RowRecord(rows[|s.records|], history, Before(s.records, |s.records|, prev), stationId, filename,
                        profile, num, hour)
              == Err(s.failure.value)
  {
    Emit(rows, (row, bound) => RowRecord(row, history, bound, stationId, filename, profile, num, hour), prev)
  }

  /** The same loop for any step from a row and the binding it starts
      from to its record. */
  function Emit(rows: seq<Row>, step: (Row, Option<Location>) -> Result<Record>, prev: Option<Location>)
    : (s: Stream)
    ensures Emitted(rows, step, prev, s)
    decreases |rows|
  {
    if |rows| == 0 then Stream([], None)
    else
      match step(rows[0], prev)
      case Err(e) => Stream([], Some(e))
      case Ok(r) =>
        var rest := Emit(rows[1..], step, Some(LocationOf(r)));
        EmitCons(rows, step, prev, r, rest);
        Stream([r] + rest.records, rest.failure)
  }

  /** s is what the loop over rows yields and raises: a record for each
      row up to the first failing one, each from the binding the record
      before it leaves, and that row's failure. */
  predicate Emitted(rows: seq<Row>, step: (Row, Option<Location>) -> Result<Record>, prev: Option<Location>, s: Stream) {
    && |s.records| <= |rows|
    && (s.failure.None? <==> |s.records| == |rows|)
    && (forall i {:trigger rows[i]} :: 0 <= i < |s.records| ==> step(rows[i], Before(s.records, i, prev)) == Ok(s.records[i]))
    && (s.failure.Some? ==> step(rows[|s.records|], Before(s.records, |s.records|, prev)) == Err(s.failure.value))
  }

  /** A first row that yields r, followed by what the rest of the rows
      yield from r's location, is what all the rows yield. */
  lemma EmitCons(rows: seq<Row>, step: (Row, Option<Location>) -> Result<Record>, prev: Option<Location>,
                 r: Record, rest: Stream)
    requires |rows| > 0 && step(rows[0], prev) == Ok(r)
    requires Emitted(rows[1..], step, Some(LocationOf(r)), rest)
    ensures Emitted(rows, step, prev, Stream([r] + rest.records, rest.failure))
  {
    var s := Stream([r] + rest.records, rest.failure);
    var bound := Some(LocationOf(r));
    forall i | 0 <= i < |s.records| ensures step(rows[i], Before(s.records, i, prev)) == Ok(s.records[i]) {
      if i > 0 {
        BeforeCons(r, rest.records, prev, i);
        assert rows[i] == rows[1..][i - 1];
        assert s.records[i] == rest.records[i - 1];
      }
    }
    if s.failure.Some? {
      var n := |rest.records|;
      BeforeCons(r, rest.records, prev, n + 1);
      assert rows[n + 1] == rows[1..][n];
    }
  }

  /** After a first record r, the binding of row i is the binding of row
      i - 1 of the rest, which starts from r's location. */
  lemma BeforeCons(r: Record, rest: seq<Record>, prev: Option<Location>, i: nat)
    requires 1 <= i <= |rest| + 1
    ensures Before([r] + rest, i, prev) == Before(rest, i - 1, Some(LocationOf(r)))
  {
    if i > 1 {
      assert ([r] + rest)[i - 1] == rest[i - 2];
    }
  }

  /** parse_records: exactly one product entry, opened and walked row by
      row with nothing bound yet. */
  function ParseRecords(members: seq<Member>, stationId: string, history: Assoc<int, Location>,
                        profile: Profile, num: string -> Option<real>, hour: string -> Option<int>)
    : (s: Stream)
    ensures ProductFile(Names(members)).Err? ==> s == Stream([], Some(ProductFile(Names(members)).error))
    ensures ProductFile(Names(members)).Ok? ==>
              var filename := ProductFile(Names(members)).value;
              && OpenMember(members, filename).Ok?
              && s == EmitRows(OpenMember(members, filename).value, history, None, stationId, filename, profile, num, hour)
  {
    match ProductFile(Names(members))
    case Err(e) => Stream([], Some(e))
    case Ok(filename) =>
      ProductOpens(members);
      match OpenMember(members, filename)
      case Err(e) => Stream([], Some(e))
      case Ok(rows) => EmitRows(rows, history, None, stationId, filename, profile, num, hour)
  }

  /** The product entry, found by name, can always be opened. */
  lemma ProductOpens(members: seq<Member>)
    requires ProductFile(Names(members)).Ok?
    ensures OpenMember(members, ProductFile(Names(members)).value).Ok?
  {
    var names := Names(members);
    var filename := ProductFile(names).value;
    var i :| 0 <= i < |names| && names[i] == filename;
    assert members[i].name == filename;
  }

  /** ObservationsParser.parse: the station id, its location history, then
      the records; any failure before the first row yields nothing. */
  function ParseObservations(members: seq<Member>, profile: Profile, num: string -> Option<real>,
                             day: string -> Option<int>, hour: string -> Option<int>)
    : (s: Stream)
    ensures ParseStationId(Names(members)).Err? ==> s == Stream([], Some(NoStationId))
    ensures ParseStationId(Names(members)).Ok? ==>
              var id := ParseStationId(Names(members)).value;
              var meta := OpenMember(members, MetadataPrefix + id + MetadataSuffix);
              && (meta.Err? ==> s == Stream([], Some(meta.error)))
              && (meta.Ok? && ParseHistory(meta.value, num, day).Err? ==> s.records == [] && s.failure.Some?)
              && (meta.Ok? && ParseHistory(meta.value, num, day).Ok? ==>
                    s == ParseRecords(members, id, ParseHistory(meta.value, num, day).value, profile, num, hour))
  {
    match ParseStationId(Names(members))
    case Err(e) => Stream([], Some(e))
    case Ok(stationId) =>
      match OpenMember(members, MetadataPrefix + stationId + MetadataSuffix)
      case Err(e) => Stream([], Some(e))
      case Ok(metadata) =>
        match ParseHistory(metadata, num, day)
        case Err(e) => Stream([], Some(e))
        case Ok(history) => ParseRecords(members, stationId, history, profile, num, hour)
  }

  /** An archive with a station id, readable metadata and one product file
      yields what the row loop over the product rows yields, located by the
      parsed history with nothing bound at first. */
  lemma ObservationOutput(members: seq<Member>, profile: Profile, num: string -> Option<real>,
                          day: string -> Option<int>, hour: string -> Option<int>)
    requires ParseStationId(Names(members)).Ok?
    ensures var id := ParseStationId(Names(members)).value;
            var meta := OpenMember(members, MetadataPrefix + id + MetadataSuffix);
            var s := ParseObservations(members, profile, num, day, hour);
            meta.Ok? && ParseHistory(meta.value, num, day).Ok? && ProductFile(Names(members)).Ok? ==>
              var filename := ProductFile(Names(members)).value;
              s == EmitRows(OpenMember(members, filename).value, ParseHistory(meta.value, num, day).value, None,
                            id, filename, profile, num, hour)
  {
  }

  /** Metadata rows in date order give a history with strictly increasing
      dates, so the scan finds the latest applicable entry. */
  lemma HistorySorted(rows: seq<Row>, num: string -> Option<real>, day: string -> Option<int>)
    requires ParseHistory(rows, num, day).Ok?
    requires forall i, j :: 0 <= i < j < |rows| ==>
               HistoryEntry(rows[i], num, day).value.0 <= HistoryEntry(rows[j], num, day).value.0
    ensures StrictlyIncreasing(ParseHistory(rows, num, day).value)
  {
    FromPairsSorted(HistoryEntries(rows, num, day).value);
  }

  /** Every record of an observations parse carries the "recent" type, the
      product file as source and the station id from the metadata name. */
  lemma ObservationHeader(members: seq<Member>, profile: Profile, num: string -> Option<real>,
                          day: string -> Option<int>, hour: string -> Option<int>)
    ensures var s := ParseObservations(members, profile, num, day, hour);
            |s.records| > 0 ==>
              && ParseStationId(Names(members)).Ok?
              && ProductFile(Names(members)).Ok?
              && forall r :: r in s.records ==>
                   && r.observationType == ObservationType
                   && r.source == SourcePrefix + ProductFile(Names(members)).value
                   && r.stationId == Some(ParseStationId(Names(members)).value)
  {
    var s := ParseObservations(members, profile, num, day, hour);
    if |s.records| > 0 {
      var names := Names(members);
      var stationId := ParseStationId(names).value;
      var metadata := OpenMember(members, MetadataPrefix + stationId + MetadataSuffix).value;
      var history := ParseHistory(metadata, num, day).value;
      var filename := ProductFile(names).value;
      var rows := OpenMember(members, filename).value;
      assert s == EmitRows(rows, history, None, stationId, filename, profile, num, hour);
      RowsHeader(rows, history, None, stationId, filename, profile, num, hour);
    }
  }

  /** Every record of the product loop carries the "recent" type, the
      product file as source and the station id. */
  lemma RowsHeader(rows: seq<Row>, history: Assoc<int, Location>, prev: Option<Location>, stationId: string,
                   filename: string, profile: Profile, num: string -> Option<real>, hour: string -> Option<int>)
    ensures forall r :: r in EmitRows(rows, history, prev, stationId, filename, profile, num, hour).records ==>
              && r.observationType == ObservationType
              && r.source == SourcePrefix + filename
              && r.stationId == Some(stationId)
  {
    var s := EmitRows(rows, history, prev, stationId, filename, profile, num, hour);
    forall r | r in s.records
      ensures r.observationType == ObservationType && r.source == SourcePrefix + filename
              && r.stationId == Some(stationId)
    {
      var i :| 0 <= i < |s.records| && s.records[i] == r;
      assert RowRecord(rows[i], history, Before(s.records, i, prev), stationId, filename, profile, num, hour)
             == Ok(r);
    }
  }

  /** A row dated before every history entry reuses the location of the
      record before it. */
  lemma StaleLocation(rows: seq<Row>, history: Assoc<int, Location>, prev: Option<Location>, stationId: string,
                      filename: string, profile: Profile, num: string -> Option<real>, hour: string -> Option<int>,
                      i: nat)
    requires var s := EmitRows(rows, history, prev, stationId, filename, profile, num, hour);
             0 < i < |s.records|
             && forall k :: 0 <= k < |history| ==> history[k].0 > s.records[i].timestamp
    ensures var s := EmitRows(rows, history, prev, stationId, filename, profile, num, hour);
            LocationOf(s.records[i]) == LocationOf(s.records[i - 1])
  {
    var s := EmitRows(rows, history, prev, stationId, filename, profile, num, hour);
    assert RowRecord(rows[i], history, Before(s.records, i, prev), stationId, filename, profile, num, hour)
           == Ok(s.records[i]);
    LocateLeadingRun(history, s.records[i].timestamp, Before(s.records, i, prev));
  }

  /** A first row dated before every history entry finds no location bound
      and ends the parse with nothing yielded. */
  lemma UnboundFirstRow(rows: seq<Row>, history: Assoc<int, Location>, stationId: string,
                        filename: string, profile: Profile, num: string -> Option<real>,
                        hour: string -> Option<int>, ts: int)
    requires |rows| > 0 && TimestampColumn in rows[0] && hour(rows[0][TimestampColumn]) == Some(ts)
    requires forall k :: 0 <= k < |history| ==> history[k].0 > ts
    ensures EmitRows(rows, history, None, stationId, filename, profile, num, hour) == Stream([], Some(UnboundLocation))
  {
    LocateLeadingRun(history, ts, None);
    assert RowRecord(rows[0], history, None, stationId, filename, profile, num, hour) == Err(UnboundLocation);
  }

  /** With increasing history dates and a first row dated no earlier than
      the first entry, every record is located by the latest entry dated at
      or before its own timestamp. */
  lemma SortedHistoryLocates(rows: seq<Row>, history: Assoc<int, Location>, stationId: string,
                             filename: string, profile: Profile, num: string -> Option<real>,
                             hour: string -> Option<int>, i: nat, k: nat)
    requires StrictlyIncreasing(history)
    requires var s := EmitRows(rows, history, None, stationId, filename, profile, num, hour);
             i < |s.records| && Latest(history, s.records[i].timestamp, k)
    ensures var s := EmitRows(rows, history, None, stationId, filename, profile, num, hour);
            LocationOf(s.records[i]) == history[k].1
  {
    var s := EmitRows(rows, history, None, stationId, filename, profile, num, hour);
    assert RowRecord(rows[i], history, Before(s.records, i, None), stationId, filename, profile, num, hour)
           == Ok(s.records[i]);
    LocateSorted(history, s.records[i].timestamp, Before(s.records, i, None));
  }
}

=== FILE: ordered_map.dfy ===
/** A Python dict: an insertion-ordered map, kept as a sequence of
    key/value pairs. */
module OrderedMap {
  import opened Results

  type Assoc<K, V> = seq<(K, V)>

  /** The keys in iteration order. */
  function Keys<K, V>(m: Assoc<K, V>): seq<K> {
    seq(|m|, i requires 0 <= i < |m| => m[i].0)
  }

  predicate DistinctKeys<K(==), V>(m: Assoc<K, V>) {
    forall i, j :: 0 <= i < j < |m| ==> m[i].0 != m[j].0
  }

  /** The position of the first occurrence of k in ks. */
  function Find<K(==)>(ks: seq<K>, k: K): (i: nat)
    requires k in ks
    ensures i < |ks| && ks[i] == k && k !in ks[..i]
  {
    if ks[0] == k then 0
    else
      assert k in ks[1..] by { assert ks == [ks[0]] + ks[1..]; }
      var i := 1 + Find(ks[1..], k);
      assert ks[..i] == [ks[0]] + ks[1..][..i - 1];
      i
  }

  lemma FindAppend<K>(ks: seq<K>, x: K, k: K)
    requires k in ks
    ensures Find(ks + [x], k) == Find(ks, k)
  {
    var i := Find(ks, k);
    var j := Find(ks + [x], k);
    assert (ks + [x])[i] == k;
    assert forall t :: 0 <= t < j ==> (ks + [x])[..j][t] == (ks + [x])[t];
    assert j <= i;
    assert forall t :: 0 <= t < i ==> ks[..i][t] == ks[t];
    assert ks[j] == k;
  }

  /** d.get(k): the value stored under k, if any. */
  function Get<K(==), V>(m: Assoc<K, V>, k: K): Option<V> {
    if k in Keys(m) then Some(m[Find(Keys(m), k)].1) else None
  }

  /** d[k] = v: a new key goes to the end; an existing key keeps its place
      and takes the new value; every other key keeps its value. */
  function Put<K(==), V>(m: Assoc<K, V>, k: K, v: V): (r: Assoc<K, V>)
    ensures Keys(r) == if k in Keys(m) then Keys(m) else Keys(m) + [k]
    ensures Get(r, k) == Some(v)
    ensures DistinctKeys(m) ==> DistinctKeys(r)
  {
    if k in Keys(m) then
      var r := m[Find(Keys(m), k) := (k, v)];
      assert Keys(r) == Keys(m);
      r
    else
      var r := m + [(k, v)];
      assert Keys(r) == Keys(m) + [k];
      assert Find(Keys(r), k) == |m| by {
        assert Keys(r)[..|m|] == Keys(m);
      }
      assert DistinctKeys(m) ==> DistinctKeys(r) by {
        if DistinctKeys(m) {
          forall i | 0 <= i < |m| ensures m[i].0 != k {
            assert Keys(m)[i] == m[i].0;
          }
        }
      }
      r
  }

  /** Assigning a new key appends it. */
  lemma PutNew<K, V>(m: Assoc<K, V>, k: K, v: V)
    requires k !in Keys(m)
    ensures Put(m, k, v) == m + [(k, v)]
  {
  }

  /** Assigning the key of entry i, its first occurrence, replaces that
      entry in place. */
  lemma PutExisting<K, V>(m: Assoc<K, V>, k: K, v: V, i: nat)
    requires i < |m| && m[i].0 == k && k !in Keys(m)[..i]
    ensures Put(m, k, v) == m[i := (k, v)]
  {
    assert Keys(m)[i] == k;
  }

  /** Assigning k leaves the value of every other key as it was. */
  lemma PutKeepsOthers<K, V>(m: Assoc<K, V>, k: K, v: V, k': K)
    requires k' != k
    ensures Get(Put(m, k, v), k') == Get(m, k')
  {
    if k !in Keys(m) && k' in Keys(m) {
      FindAppend(Keys(m), k, k');
    }
  }

  /** The dict built by assigning the pairs of ps in order. */
  function FromPairs<K(==), V>(ps: seq<(K, V)>): (m: Assoc<K, V>)
    ensures DistinctKeys(m)
  {
    if |ps| == 0 then [] else Put(FromPairs(ps[..|ps| - 1]), ps[|ps| - 1].0, ps[|ps| - 1].1)
  }

  /** Assigning one more pair assigns it to the dict built so far. */
  lemma FromPairsSnoc<K, V>(ps: seq<(K, V)>, p: (K, V))
    ensures FromPairs(ps + [p]) == Put(FromPairs(ps), p.0, p.1)
  {
    assert (ps + [p])[..|ps|] == ps;
  }

  /** Assigning a key that is already present keeps the keys, and their
      order, as they were, and the key takes the new value: a repeated
      key stays at the place of its first assignment. */
  lemma FromPairsRepeatedKey<K, V>(ps: seq<(K, V)>, k: K, v: V)
    requires k in Keys(ps)
    ensures Keys(FromPairs(ps + [(k, v)])) == Keys(FromPairs(ps))
    ensures Get(FromPairs(ps + [(k, v)]), k) == Some(v)
  {
    FromPairsSnoc(ps, (k, v));
    FromPairsHasKey(ps, k);
  }

  /** After assigning the pairs of ps in order, k is present exactly when
      some pair names it. */
  lemma {:induction false} FromPairsHasKey<K, V>(ps: seq<(K, V)>, k: K)
    ensures Get(FromPairs(ps), k).Some? <==> k in Keys(ps)
  {
    if |ps| > 0 {
      var init := ps[..|ps| - 1];
      FromPairsHasKey(init, k);
      assert Keys(ps) == Keys(init) + [ps[|ps| - 1].0];
    }
  }

  /** After assigning the pairs of ps in order, a key holds the value of the
      last pair that names it: a repeated key is overwritten. */
  lemma {:induction false} FromPairsLastWins<K, V>(ps: seq<(K, V)>, i: nat)
    requires i < |ps|
    requires forall j :: i < j < |ps| ==> ps[j].0 != ps[i].0
    ensures Get(FromPairs(ps), ps[i].0) == Some(ps[i].1)
  {
    var init := ps[..|ps| - 1];
    var last := ps[|ps| - 1];
    if i < |ps| - 1 {
      assert init[i] == ps[i];
      assert forall j :: i < j < |init| ==> init[j] == ps[j];
      FromPairsLastWins(init, i);
      PutKeepsOthers(FromPairs(init), last.0, last.1, ps[i].0);
    }
  }

  /** Keys in strictly increasing order. */
  predicate StrictlyIncreasing<V>(m: Assoc<int, V>) {
    forall i, j :: 0 <= i < j < |m| ==> m[i].0 < m[j].0
  }

  /** Assigning keys in non-decreasing order gives strictly increasing
      keys. */
  lemma {:induction false} FromPairsSorted<V>(ps: seq<(int, V)>)
    requires forall i, j :: 0 <= i < j < |ps| ==> ps[i].0 <= ps[j].0
    ensures StrictlyIncreasing(FromPairs(ps))
  {
    if |ps| > 0 {
      var init := ps[..|ps| - 1];
      var k := ps[|ps| - 1].0;
      var m := FromPairs(init);
      FromPairsSorted(init);
      forall i | 0 <= i < |m| ensures m[i].0 <= k {
        FromPairsHasKey(init, m[i].0);
        assert Keys(m)[i] == m[i].0;
        var i' :| 0 <= i' < |init| && Keys(init)[i'] == m[i].0;
        assert ps[i'] == init[i'];
      }
      PutSorted(m, k, ps[|ps| - 1].1);
    }
  }

  /** Assigning a key no smaller than every key present keeps the keys
      strictly increasing. */
  lemma PutSorted<V>(m: Assoc<int, V>, k: int, v: V)
    requires StrictlyIncreasing(m)
    requires forall i :: 0 <= i < |m| ==> m[i].0 <= k
    ensures StrictlyIncreasing(Put(m, k, v))
  {
    var r := Put(m, k, v);
    if k in Keys(m) {
      assert Keys(r) == Keys(m);
      forall i, j | 0 <= i < j < |r| ensures r[i].0 < r[j].0 {
        assert Keys(r)[i] == Keys(m)[i] && Keys(r)[j] == Keys(m)[j];
      }
    } else {
      assert Keys(r) == Keys(m) + [k];
      forall i, j | 0 <= i < j < |r| ensures r[i].0 < r[j].0 {
        assert Keys(r)[i] == r[i].0 && Keys(r)[j] == r[j].0;
        assert Keys(m)[i] == m[i].0;
        if j < |m| {
          assert Keys(m)[j] == m[j].0;
        } else {
          assert m[i].0 != k;
        }
      }
    }
  }
}

=== FILE: profiles.dfy ===
/** The element columns of one observation CSV row and their unit
    conversions: ObservationsParser.parse_elements and the five profile
    subclasses, each a table of fields. */
module Profiles {
  import opened Results
  import opened Text
  import opened Rounding

  /** A csv.DictReader row: column header to cell text. A column the row
      does not have is an absent key. */
  type Row = map<string, string>

  /** One element of a profile: the record field it fills, the CSV column it
      is read from, the factor of conversion_factors (if any), and whether
      the profile turns it from degrees Celsius into kelvin. */
  datatype Field = Field(name: string, column: string, factor: Option<int>, kelvin: bool)

  /** The `elements` table of a parser class, in its order. */
  type Profile = seq<Field>

  /** The cell text, after trimming, that stands for a missing reading. */
  const Sentinel := "-999"

  /** Degrees Celsius to kelvin. */
  const KelvinOffset: real := 273.15

  const Temperature: Profile := [Field("temperature", "TT_TU", None, true)]
  const Precipitation: Profile := [Field("precipitation", "  R1", None, false)]
  const Wind: Profile := [Field("wind_speed", "   F", None, false), Field("wind_direction", "   D", None, false)]
  /** Minutes to seconds. */
  const Sunshine: Profile := [Field("sunshine", "SD_SO", Some(60), false)]
  /** Hectopascal to pascal. */
  const Pressure: Profile := [Field("pressure_msl", "  P0", Some(100), false)]

  /** A field that leaves its decoded value as it is. */
  predicate Plain(f: Field) {
    f.factor.None? && !f.kelvin
  }

  /** row[key]: a KeyError for a column the row does not have. */
  function Cell(row: Row, key: string): (r: Result<string>)
    ensures r.Ok? <==> key in row
    ensures r.Ok? ==> r.value == row[key]
    ensures r.Err? ==> r.error == MissingColumn(key)
  {
    if key in row then Ok(row[key]) else Err(MissingColumn(key))
  }

  /** One cell: missing when its text, trimmed, is the sentinel; otherwise
      float() of the untrimmed text. */
  function DecodeCell(num: string -> Option<real>, row: Row, key: string): (r: Result<Option<real>>)
    ensures r == Ok(None) <==> key in row && Strip(row[key]) == Sentinel
    ensures r.Ok? && r.value.Some? ==> key in row && Strip(row[key]) != Sentinel && num(row[key]) == r.value
    ensures r.Err? ==>
              || (key !in row && r.error == MissingColumn(key))
              || (key in row && Strip(row[key]) != Sentinel && num(row[key]).None? && r.error == BadNumber(row[key]))
  {
    var text :- Cell(row, key);
    if Strip(text) == Sentinel then Ok(None)
    else
      var v :- ToFloat(num, text);
      Ok(Some(v))
  }

  /** A reading times an integer factor. */
  function Times(x: real, k: int): real {
    x * k as real
  }

  /** elements[name] *= factor, then round(…, 2); None * factor raises. */
  function Scale(f: Field, v: Option<real>): (r: Result<Option<real>>)
    ensures f.factor.None? ==> r == Ok(v)
    ensures f.factor.Some? ==>
              && (r.Err? <==> v.None?)
              && (r.Err? ==> r.error == ConvertMissing(f.name))
              && (r.Ok? ==> r.value.Some?)
    ensures f.factor.Some? && v.Some? ==>
              && r.Ok? && r.value.Some?
              && IsCents(r.value.value)
              && Abs(r.value.value - Times(v.value, f.factor.value)) <= 0.005
  {
    match f.factor
    case None => Ok(v)
    case Some(k) =>
      if v.None? then Err(ConvertMissing(f.name))
      else Ok(Some(Round2(Times(v.value, k))))
  }

  /** round(elements[name] + 273.15, 2); None + 273.15 raises. */
  function ToKelvin(f: Field, v: Option<real>): (r: Result<Option<real>>)
    ensures !f.kelvin ==> r == Ok(v)
    ensures f.kelvin ==>
              && (r.Err? <==> v.None?)
              && (r.Err? ==> r.error == ConvertMissing(f.name))
              && (r.Ok? ==> r.value.Some?)
    ensures f.kelvin && v.Some? ==>
              && r.Ok? && r.value.Some?
              && IsCents(r.value.value)
              && Abs(r.value.value - (v.value + KelvinOffset)) <= 0.005
  {
    if !f.kelvin then Ok(v)
    else if v.None? then Err(ConvertMissing(f.name))
    else Ok(Some(Round2(v.value + KelvinOffset)))
  }

  /** The first pass: the dict comprehension reading every column in
      profile order; the first raise ends it. */
  function DecodeAll(num: string -> Option<real>, row: Row, fs: Profile): (r: Result<seq<Option<real>>>)
    ensures r.Ok? <==> forall i :: 0 <= i < |fs| ==> DecodeCell(num, row, fs[i].column).Ok?
    ensures r.Ok? ==> |r.value| == |fs|
                      && forall i :: 0 <= i < |fs| ==> DecodeCell(num, row, fs[i].column) == Ok(r.value[i])
    ensures r.Err? ==> exists i :: 0 <= i < |fs| && DecodeCell(num, row, fs[i].column) == Err(r.error)
                                   && forall j :: 0 <= j < i ==> DecodeCell(num, row, fs[j].column).Ok?
  {
    if |fs| == 0 then Ok([])
    else
      var v :- DecodeCell(num, row, fs[0].column);
      var vs :- DecodeAll(num, row, fs[1..]);
      Ok([v] + vs)
  }

  /** The second pass: the conversion_factors loop over the decoded
      values; the first raise ends it. */
  function ScaleAll(fs: Profile, vs: seq<Option<real>>): (r: Result<seq<Option<real>>>)
    requires |vs| == |fs|
    ensures r.Ok? <==> forall i :: 0 <= i < |fs| ==> Scale(fs[i], vs[i]).Ok?
    ensures r.Ok? ==> |r.value| == |fs|
                      && forall i :: 0 <= i < |fs| ==> Scale(fs[i], vs[i]) == Ok(r.value[i])
    ensures r.Err? ==> exists i :: 0 <= i < |fs| && Scale(fs[i], vs[i]) == Err(r.error)
                                   && forall j :: 0 <= j < i ==> Scale(fs[j], vs[j]).Ok?
  {
    if |fs| == 0 then Ok([])
    else
      var w :- Scale(fs[0], vs[0]);
      var ws :- ScaleAll(fs[1..], vs[1..]);
      Ok([w] + ws)
  }

  /** The third pass: the kelvin conversion of the temperature profile;
      the first raise ends it. */
  function KelvinAll(fs: Profile, vs: seq<Option<real>>): (r: Result<seq<Option<real>>>)
    requires |vs| == |fs|
    ensures r.Ok? <==> forall i :: 0 <= i < |fs| ==> ToKelvin(fs[i], vs[i]).Ok?
    ensures r.Ok? ==> |r.value| == |fs|
                      && forall i :: 0 <= i < |fs| ==> ToKelvin(fs[i], vs[i]) == Ok(r.value[i])
    ensures r.Err? ==> exists i :: 0 <= i < |fs| && ToKelvin(fs[i], vs[i]) == Err(r.error)
                                   && forall j :: 0 <= j < i ==> ToKelvin(fs[j], vs[j]).Ok?
  {
    if |fs| == 0 then Ok([])
    else
      var w :- ToKelvin(fs[0], vs[0]);
      var ws :- KelvinAll(fs[1..], vs[1..]);
      Ok([w] + ws)
  }

  /** parse_elements: every column decoded (first pass), then every factor
      applied (second pass), then the kelvin conversion (the temperature
      override, after the inherited method returns); the first raise of the
      first pass that raises ends the row. */
  function ParseElements(profile: Profile, row: Row, num: string -> Option<real>)
    : (r: Result<seq<(string, Option<real>)>>)
    ensures r.Ok? ==> |r.value| == |profile|
    ensures r.Ok? ==> forall i :: 0 <= i < |profile| ==> r.value[i].0 == profile[i].name
  {
    var decoded :- DecodeAll(num, row, profile);
    var scaled :- ScaleAll(profile, decoded);
    var converted :- KelvinAll(profile, scaled);
    Ok(Named(profile, converted))
  }

  /** The values of a profile under their field names. */
  function Named(profile: Profile, vs: seq<Option<real>>): seq<(string, Option<real>)>
    requires |vs| == |profile|
  {
    seq(|profile|, i requires 0 <= i < |profile| => (profile[i].name, vs[i]))
  }

  /** What one field of a row comes to on its own: decoded, scaled,
      converted. */
  function FieldValue(num: string -> Option<real>, row: Row, f: Field): Result<Option<real>> {
    var v :- DecodeCell(num, row, f.column);
    var w :- Scale(f, v);
    ToKelvin(f, w)
  }

  /** A row's elements succeed exactly when every field succeeds on its
      own, and then field i holds its own value: the passes do not mix
      fields. */
  lemma ElementsPointwise(profile: Profile, row: Row, num: string -> Option<real>)
    ensures ParseElements(profile, row, num).Ok?
            <==> forall i :: 0 <= i < |profile| ==> FieldValue(num, row, profile[i]).Ok?
    ensures ParseElements(profile, row, num).Ok? ==>
              forall i :: 0 <= i < |profile| ==>
                ParseElements(profile, row, num).value[i] == (profile[i].name, FieldValue(num, row, profile[i]).value)
  {
    var decoded := DecodeAll(num, row, profile);
    if decoded.Err? {
      var i :| 0 <= i < |profile| && DecodeCell(num, row, profile[i].column).Err?;
      assert FieldValue(num, row, profile[i]).Err?;
      return;
    }
    var scaled := ScaleAll(profile, decoded.value);
    if scaled.Err? {
      var i :| 0 <= i < |profile| && Scale(profile[i], decoded.value[i]).Err?;
      assert FieldValue(num, row, profile[i]).Err?;
      return;
    }
    var converted := KelvinAll(profile, scaled.value);
    if converted.Err? {
      var i :| 0 <= i < |profile| && ToKelvin(profile[i], scaled.value[i]).Err?;
      assert FieldValue(num, row, profile[i]).Err?;
      return;
    }
    forall i | 0 <= i < |profile|
      ensures FieldValue(num, row, profile[i]) == Ok(converted.value[i])
    {
    }
  }

  /** A column the row lacks raises before any conversion: the row fails
      with the first such failure of the decoding pass, whatever the
      later fields would have done. */
  lemma DecodeFailureFirst(profile: Profile, row: Row, num: string -> Option<real>, i: nat)
    requires i < |profile|
    requires DecodeCell(num, row, profile[i].column).Err?
    requires forall j :: 0 <= j < i ==> DecodeCell(num, row, profile[j].column).Ok?
    ensures ParseElements(profile, row, num) == Err(DecodeCell(num, row, profile[i].column).error)
  {
    var decoded := DecodeAll(num, row, profile);
    assert decoded.Err?;
    var k :| 0 <= k < |profile| && DecodeCell(num, row, profile[k].column) == Err(decoded.error)
             && forall j :: 0 <= j < k ==> DecodeCell(num, row, profile[j].column).Ok?;
    assert DecodeCell(num, row, profile[k].column).Err?;
    assert k == i;
  }

  /** A plain field is missing exactly when its cell, trimmed, is the
      sentinel, and otherwise holds float() of the cell unrounded; the
      other fields of the row play no part. */
  lemma PlainField(profile: Profile, row: Row, num: string -> Option<real>, i: nat)
    requires i < |profile| && Plain(profile[i])
    requires ParseElements(profile, row, num).Ok?
    ensures profile[i].column in row
    ensures ParseElements(profile, row, num).value[i].1.None? <==> Strip(row[profile[i].column]) == Sentinel
    ensures ParseElements(profile, row, num).value[i].1.Some? ==>
              num(row[profile[i].column]) == ParseElements(profile, row, num).value[i].1
  {
    ElementsPointwise(profile, row, num);
  }

  /** A missing reading in a converting field makes the whole row fail. */
  lemma ConvertingMissingFails(profile: Profile, row: Row, num: string -> Option<real>, i: nat)
    requires i < |profile| && !Plain(profile[i])
    requires profile[i].column in row && Strip(row[profile[i].column]) == Sentinel
    ensures ParseElements(profile, row, num).Err?
  {
    ElementsPointwise(profile, row, num);
    assert FieldValue(num, row, profile[i]).Err?;
  }

  /** Replacing the cell of one column changes no field that reads another
      column. */
  lemma FieldsIndependent(num: string -> Option<real>, row: Row, f: Field, key: string, text: string)
    requires key != f.column
    ensures FieldValue(num, row[key := text], f) == FieldValue(num, row, f)
  {
    assert (f.column in row[key := text]) == (f.column in row);
    assert f.column in row ==> row[key := text][f.column] == row[f.column];
  }

  /** No whole number of hundredths is nearer to v * factor than the
      scaled reading. */
  lemma ScaleNearest(f: Field, k: int, v: real, c: real)
    requires f.factor == Some(k) && IsCents(c)
    ensures Scale(f, Some(v)).Ok? && Scale(f, Some(v)).value.Some?
    ensures Abs(Scale(f, Some(v)).value.value - Times(v, k)) <= Abs(c - Times(v, k))
  {
    Round2Nearest(Times(v, k), c);
  }

  /** No whole number of hundredths is nearer to v + 273.15 than the
      converted reading. */
  lemma KelvinNearest(f: Field, v: real, c: real)
    requires f.kelvin && IsCents(c)
    ensures ToKelvin(f, Some(v)).Ok? && ToKelvin(f, Some(v)).value.Some?
    ensures Abs(ToKelvin(f, Some(v)).value.value - (v + KelvinOffset)) <= Abs(c - (v + KelvinOffset))
  {
    Round2Nearest(v + KelvinOffset, c);
  }

  /** A reading given to whole hundredths goes through a profile's factor
      exactly: round(v * k, 2) is v * k. */
  lemma ScaleExact(f: Field, k: int, v: real)
    requires f.factor == Some(k) && IsCents(v)
    ensures Scale(f, Some(v)) == Ok(Some(Times(v, k)))
  {
    CentsScale(v, k);
    Round2Cents(Times(v, k));
  }

  /** A reading given to whole hundredths converts to kelvin exactly. */
  lemma KelvinExact(f: Field, v: real)
    requires f.kelvin && IsCents(v)
    ensures ToKelvin(f, Some(v)) == Ok(Some(v + KelvinOffset))
  {
    assert IsCents(KelvinOffset) by {
      assert KelvinOffset * 100.0 == 27315.0;
    }
    CentsAdd(v, KelvinOffset);
    Round2Cents(v + KelvinOffset);
  }

  /** The reading named by a profile's single column, when it is a number. */
  predicate Reads(profile: Profile, row: Row, num: string -> Option<real>, v: real)
    requires |profile| == 1
  {
    && profile[0].column in row
    && Strip(row[profile[0].column]) != Sentinel
    && num(row[profile[0].column]) == Some(v)
  }

  /** A field whose three steps succeed comes to the last step's value. */
  lemma FieldSteps(num: string -> Option<real>, row: Row, f: Field, d: Option<real>, w: Option<real>, x: Option<real>)
    requires DecodeCell(num, row, f.column) == Ok(d)
    requires Scale(f, d) == Ok(w)
    requires ToKelvin(f, w) == Ok(x)
    ensures FieldValue(num, row, f) == Ok(x)
  {
  }

  /** A row whose fields come, one by one, to the values vs parses to
      those values under the fields' names. */
  lemma ElementsOf(profile: Profile, row: Row, num: string -> Option<real>, vs: seq<Option<real>>)
    requires |vs| == |profile|
    requires forall i :: 0 <= i < |profile| ==> FieldValue(num, row, profile[i]) == Ok(vs[i])
    ensures ParseElements(profile, row, num) == Ok(Named(profile, vs))
  {
    ElementsPointwise(profile, row, num);
    assert ParseElements(profile, row, num).value == Named(profile, vs);
  }

  /** Pressure in hPa to whole hundredths comes out in Pa, times 100. */
  lemma PressureValue(row: Row, num: string -> Option<real>, v: real)
    requires Reads(Pressure, row, num, v) && IsCents(v)
    ensures ParseElements(Pressure, row, num) == Ok([("pressure_msl", Some(v * 100.0))])
  {
    var f := Pressure[0];
    assert DecodeCell(num, row, f.column) == Ok(Some(v));
    ScaleExact(f, 100, v);
    assert Times(v, 100) == v * 100.0;
    assert ToKelvin(f, Some(v * 100.0)) == Ok(Some(v * 100.0));
    FieldSteps(num, row, f, Some(v), Some(v * 100.0), Some(v * 100.0));
    ElementsOf(Pressure, row, num, [Some(v * 100.0)]);
    assert Named(Pressure, [Some(v * 100.0)]) == [("pressure_msl", Some(v * 100.0))];
  }

  /** Sunshine in minutes to whole hundredths comes out in seconds, times
      60. */
  lemma SunshineValue(row: Row, num: string -> Option<real>, v: real)
    requires Reads(Sunshine, row, num, v) && IsCents(v)
    ensures ParseElements(Sunshine, row, num) == Ok([("sunshine", Some(v * 60.0))])
  {
    var f := Sunshine[0];
    assert DecodeCell(num, row, f.column) == Ok(Some(v));
    ScaleExact(f, 60, v);
    assert Times(v, 60) == v * 60.0;
    assert ToKelvin(f, Some(v * 60.0)) == Ok(Some(v * 60.0));
    FieldSteps(num, row, f, Some(v), Some(v * 60.0), Some(v * 60.0));
    ElementsOf(Sunshine, row, num, [Some(v * 60.0)]);
    assert Named(Sunshine, [Some(v * 60.0)]) == [("sunshine", Some(v * 60.0))];
  }

  /** A temperature in degrees Celsius to whole hundredths comes out in
      kelvin, plus 273.15. */
  lemma TemperatureValue(row: Row, num: string -> Option<real>, v: real)
    requires Reads(Temperature, row, num, v) && IsCents(v)
    ensures ParseElements(Temperature, row, num) == Ok([("temperature", Some(v + KelvinOffset))])
  {
    var f := Temperature[0];
    KelvinExact(f, v);
    assert FieldValue(num, row, f) == Ok(Some(v + KelvinOffset));
    ElementsOf(Temperature, row, num, [Some(v + KelvinOffset)]);
    assert Named(Temperature, [Some(v + KelvinOffset)]) == [("temperature", Some(v + KelvinOffset))];
  }

  /** Any temperature reading comes out as whole hundredths of a kelvin,
      within half a hundredth of the exact sum. */
  lemma TemperatureRounded(row: Row, num: string -> Option<real>, v: real)
    requires Reads(Temperature, row, num, v)
    ensures ParseElements(Temperature, row, num).Ok?
    ensures var t := ParseElements(Temperature, row, num).value[0].1;
            t.Some? && IsCents(t.value) && Abs(t.value - (v + KelvinOffset)) <= 0.005
  {
    var f := Temperature[0];
    var x := Round2(v + KelvinOffset);
    assert FieldValue(num, row, f) == Ok(Some(x));
    ElementsOf(Temperature, row, num, [Some(x)]);
  }

  /** Any pressure reading comes out as whole hundredths of a pascal,
      within half a hundredth of v * 100. */
  lemma PressureRounded(row: Row, num: string -> Option<real>, v: real)
    requires Reads(Pressure, row, num, v)
    ensures ParseElements(Pressure, row, num).Ok?
    ensures var p := ParseElements(Pressure, row, num).value[0].1;
            p.Some? && IsCents(p.value) && Abs(p.value - v * 100.0) <= 0.005
  {
    var f := Pressure[0];
    var x := Round2(Times(v, 100));
    assert Times(v, 100) == v * 100.0;
    assert DecodeCell(num, row, f.column) == Ok(Some(v));
    FieldSteps(num, row, f, Some(v), Some(x), Some(x));
    ElementsOf(Pressure, row, num, [Some(x)]);
  }

  /** Any sunshine reading comes out as whole hundredths of a second,
      within half a hundredth of v * 60. */
  lemma SunshineRounded(row: Row, num: string -> Option<real>, v: real)
    requires Reads(Sunshine, row, num, v)
    ensures ParseElements(Sunshine, row, num).Ok?
    ensures var p := ParseElements(Sunshine, row, num).value[0].1;
            p.Some? && IsCents(p.value) && Abs(p.value - v * 60.0) <= 0.005
  {
    var f := Sunshine[0];
    var x := Round2(Times(v, 60));
    assert Times(v, 60) == v * 60.0;
    assert DecodeCell(num, row, f.column) == Ok(Some(v));
    FieldSteps(num, row, f, Some(v), Some(x), Some(x));
    ElementsOf(Sunshine, row, num, [Some(x)]);
  }

  /** A plain field comes to float() of its cell, unrounded. */
  lemma PlainReading(num: string -> Option<real>, row: Row, f: Field, v: real)
    requires Plain(f)
    requires f.column in row && Strip(row[f.column]) != Sentinel && num(row[f.column]) == Some(v)
    ensures FieldValue(num, row, f) == Ok(Some(v))
  {
    assert DecodeCell(num, row, f.column) == Ok(Some(v));
  }

  /** A plain field whose cell is the sentinel is missing. */
  lemma PlainMissing(num: string -> Option<real>, row: Row, f: Field)
    requires Plain(f)
    requires f.column in row && Strip(row[f.column]) == Sentinel
    ensures FieldValue(num, row, f) == Ok(None)
  {
    assert DecodeCell(num, row, f.column) == Ok(None);
  }

  /** Precipitation is passed through as parsed, with no rounding. */
  lemma PrecipitationUnrounded(row: Row, num: string -> Option<real>, v: real)
    requires Reads(Precipitation, row, num, v)
    ensures ParseElements(Precipitation, row, num) == Ok([("precipitation", Some(v))])
  {
    PlainReading(num, row, Precipitation[0], v);
    ElementsOf(Precipitation, row, num, [Some(v)]);
    assert Named(Precipitation, [Some(v)]) == [("precipitation", Some(v))];
  }

  /** Wind readings are passed through as parsed, with no rounding: each
      field is float() of its cell. */
  lemma WindUnrounded(row: Row, num: string -> Option<real>, speed: real, direction: real)
    requires "   F" in row && Strip(row["   F"]) != Sentinel && num(row["   F"]) == Some(speed)
    requires "   D" in row && Strip(row["   D"]) != Sentinel && num(row["   D"]) == Some(direction)
    ensures ParseElements(Wind, row, num) == Ok([("wind_speed", Some(speed)), ("wind_direction", Some(direction))])
  {
    PlainReading(num, row, Wind[0], speed);
    PlainReading(num, row, Wind[1], direction);
    ElementsOf(Wind, row, num, [Some(speed), Some(direction)]);
    assert Named(Wind, [Some(speed), Some(direction)]) == [("wind_speed", Some(speed)), ("wind_direction", Some(direction))];
  }

  /** A wind row with a missing speed keeps its direction: the sentinel of
      one column leaves the other field alone. */
  lemma WindMissingSpeed(row: Row, num: string -> Option<real>, direction: real)
    requires "   F" in row && Strip(row["   F"]) == Sentinel
    requires "   D" in row && Strip(row["   D"]) != Sentinel && num(row["   D"]) == Some(direction)
    ensures ParseElements(Wind, row, num) == Ok([("wind_speed", None), ("wind_direction", Some(direction))])
  {
    PlainMissing(num, row, Wind[0]);
    PlainReading(num, row, Wind[1], direction);
    ElementsOf(Wind, row, num, [None, Some(direction)]);
    assert Named(Wind, [None, Some(direction)]) == [("wind_speed", None), ("wind_direction", Some(direction))];
  }
}

=== FILE: records.dfy ===
/** The flat records both parsers yield, and the stream a generator
    produces when it may raise part-way through. */
module Records {
  import opened Results

  /** One yielded dict: the header fields every parser sets, then the
      element fields in the order the parser adds them. */
  datatype Record = Record(
    observationType: string,
    source: string,
    stationId: Option<string>,
    lat: real,
    lon: real,
    height: real,
    timestamp: int,
    values: seq<(string, Option<real>)>)

  /** What a consumer gets from a generator: the records yielded before it
      raised, and what it raised (None when it ran to the end). */
  datatype Stream = Stream(records: seq<Record>, failure: Option<Error>)

  predicate AllOk(parts: seq<Result<seq<Record>>>) {
    forall k :: 0 <= k < |parts| ==> parts[k].Ok?
  }

  /** The records of all parts, part after part. */
  function Flatten(parts: seq<Result<seq<Record>>>): seq<Record>
    requires AllOk(parts)
  {
    if |parts| == 0 then [] else parts[0].value + Flatten(parts[1..])
  }

  lemma {:induction false} FlattenLength(parts: seq<Result<seq<Record>>>, n: nat)
    requires AllOk(parts)
    requires forall k :: 0 <= k < |parts| ==> |parts[k].value| == n
    ensures |Flatten(parts)| == |parts| * n
  {
    if |parts| > 0 {
      FlattenLength(parts[1..], n);
      assert |parts| * n == n + (|parts| - 1) * n;
    }
  }

  /** The position of record i of part k when every part has n records. */
  function Slot(k: nat, n: nat, i: nat): nat {
    k * n + i
  }

  lemma SlotMonotone(a: nat, b: nat, n: nat)
    requires a <= b
    ensures Slot(a, n, 0) <= Slot(b, n, 0)
  {
    assert b * n == a * n + (b - a) * n;
  }

  /** Parts of n records each: record i of part k sits at k * n + i. */
  lemma {:induction false} FlattenIndex(parts: seq<Result<seq<Record>>>, n: nat, k: nat, i: nat)
    requires AllOk(parts)
    requires forall k :: 0 <= k < |parts| ==> |parts[k].value| == n
    requires k < |parts| && i < n
    ensures Slot(k, n, i) < |Flatten(parts)|
    ensures Flatten(parts)[Slot(k, n, i)] == parts[k].value[i]
  {
    FlattenLength(parts, n);
    if k > 0 {
      var j := (k - 1) * n + i;
      FlattenIndex(parts[1..], n, k - 1, i);
      assert k * n + i == j + n;
      assert Flatten(parts) == parts[0].value + Flatten(parts[1..]);
    }
  }

  /** Parts of n records each flatten to |parts| * n records, record i of
      part k landing at k * n + i. */
  lemma FlattenUniform(parts: seq<Result<seq<Record>>>, n: nat)
    requires AllOk(parts)
    requires forall k :: 0 <= k < |parts| ==> |parts[k].value| == n
    ensures |Flatten(parts)| == |parts| * n
    ensures forall k, i :: 0 <= k < |parts| && 0 <= i < n ==>
              Slot(k, n, i) < |Flatten(parts)| && Flatten(parts)[Slot(k, n, i)] == parts[k].value[i]
  {
    FlattenLength(parts, n);
    forall k, i | 0 <= k < |parts| && 0 <= i < n
      ensures Slot(k, n, i) < |Flatten(parts)| && Flatten(parts)[Slot(k, n, i)] == parts[k].value[i]
    {
      FlattenIndex(parts, n, k, i);
    }
  }

  /** Every record of the flattened parts comes from some part. */
  lemma {:induction false} FlattenMember(parts: seq<Result<seq<Record>>>, r: Record) returns (k: nat, i: nat)
    requires AllOk(parts)
    requires r in Flatten(parts)
    ensures k < |parts| && i < |parts[k].value| && parts[k].value[i] == r
  {
    if r in parts[0].value {
      k := 0;
      i :| 0 <= i < |parts[0].value| && parts[0].value[i] == r;
    } else {
      var k', i' := FlattenMember(parts[1..], r);
      k, i := k' + 1, i';
    }
  }

  /** A generator that yields the records of each part in turn and raises
      the error of the first failed part. */
  function Drain(parts: seq<Result<seq<Record>>>): (s: Stream)
    ensures s.failure.None? <==> AllOk(parts)
    ensures s.failure.None? ==> s.records == Flatten(parts)
    ensures s.failure.Some? ==>
              exists k :: 0 <= k < |parts| && parts[k] == Err(s.failure.value)
                          && AllOk(parts[..k]) && s.records == Flatten(parts[..k])
  {
    if |parts| == 0 then Stream([], None)
    else
      match parts[0]
      case Err(e) =>
        assert AllOk(parts[..0]) && Flatten(parts[..0]) == [];
        Stream([], Some(e))
      case Ok(rs) =>
        var rest := Drain(parts[1..]);
        assert AllOk(parts[1..]) ==> AllOk(parts);
        assert rest.failure.Some? ==>
                 exists k :: 0 <= k < |parts| && parts[k] == Err(rest.failure.value)
                             && AllOk(parts[..k]) && rs + rest.records == Flatten(parts[..k]) by {
          if rest.failure.Some? {
            var k :| 0 <= k < |parts[1..]| && parts[1..][k] == Err(rest.failure.value)
                     && AllOk(parts[1..][..k]) && rest.records == Flatten(parts[1..][..k]);
            assert parts[..k + 1][1..] == parts[1..][..k];
            assert AllOk(parts[..k + 1]);
          }
        }
        Stream(rs + rest.records, rest.failure)
  }

  /** When part k fails, draining stops with a failure at or before part k,
      having yielded exactly the records of the parts before the failing
      one, and so no more than the parts before k hold. */
  lemma DrainStopsBefore(parts: seq<Result<seq<Record>>>, n: nat, k: nat)
    requires k < |parts| && parts[k].Err?
    requires forall q :: 0 <= q < |parts| && parts[q].Ok? ==> |parts[q].value| == n
    ensures Drain(parts).failure.Some?
    ensures |Drain(parts).records| <= Slot(k, n, 0)
    ensures exists j :: 0 <= j <= k && AllOk(parts[..j]) && Drain(parts).records == Flatten(parts[..j])
  {
    var s := Drain(parts);
    var k' :| 0 <= k' < |parts| && parts[k'] == Err(s.failure.value)
              && AllOk(parts[..k']) && s.records == Flatten(parts[..k']);
    var before := parts[..k'];
    assert forall q :: 0 <= q < k' ==> before[q] == parts[q];
    assert k' <= k;
    FlattenLength(before, n);
    SlotMonotone(k', k, n);
    assert 0 <= k' <= k && AllOk(parts[..k']) && s.records == Flatten(parts[..k']);
  }
}

=== FILE: results.dfy ===
/** Option and Result values, and the failures the parsers raise.

    The parsers are Python generators that raise on the first violated
    expectation; every such raise site is one constructor of `Error`.
 */
module Results {

  datatype Option<+T> = None | Some(value: T)

  /** One constructor per place where brightsky/parsers.py raises. */
  datatype Error =
    | UnexpectedZipContent(members: nat)    // forecast archive without exactly one member
    | NoStationId                           // no Metadaten_Geographie_<digits>.txt member
    | MissingMember(name: string)           // opening a member the archive does not hold
    | UnexpectedProductCount(count: nat)    // not exactly one produkt_* member
    | MissingCoordinates                    // a Placemark without a coordinates text
    | CoordinateCount(count: nat)           // coordinates that are not three comma-separated parts
    | MissingElement(code: string)          // a Placemark without the series of an element code
    | BadNumber(text: string)               // float() rejects the text
    | LengthMismatch(column: string, length: nat, expected: nat)
    | MissingColumn(key: string)            // a CSV row without the column
    | BadTimestamp(text: string)            // strptime() rejects the text
    | UnboundLocation                       // no history entry has bound a location yet
    | ConvertMissing(field: string)         // unit conversion applied to a missing value

  datatype Result<+T> = Ok(value: T) | Err(error: Error) {

    predicate IsFailure() {
      Err?
    }

    function PropagateFailure<U>(): Result<U>
      requires Err?
    {
      Err(error)
    }

    function Extract(): T
      requires Ok?
    {
      value
    }
  }

  /** Python's float(text); the decimal parser itself is the parameter `num`. */
  function ToFloat(num: string -> Option<real>, text: string): Result<real> {
    match num(text)
    case Some(v) => Ok(v)
    case None => Err(BadNumber(text))
  }
}

=== FILE: rounding.dfy ===
/** Python's round(x, 2), stated over exact reals: the nearest whole number
    of hundredths, ties going to the even neighbour. */
module Rounding {

  /** r is a whole number of hundredths. */
  predicate IsCents(r: real) {
    (r * 100.0).Floor as real == r * 100.0
  }

  function Abs(x: real): real {
    if x < 0.0 then -x else x
  }

  /** The integer nearest to y; of two equally near, the even one. */
  function RoundHalfEven(y: real): (n: int)
    ensures Abs(n as real - y) <= 0.5
    ensures Abs(n as real - y) == 0.5 ==> n % 2 == 0
  {
    var f := y.Floor;
    var d := y - f as real;
    if d < 0.5 then f
    else if d > 0.5 then f + 1
    else if f % 2 == 0 then f
    else f + 1
  }

  /** Python's round(x, 2). */
  function Round2(x: real): (r: real)
    ensures IsCents(r)
    ensures Abs(r - x) <= 0.005
    ensures Abs(r - x) == 0.005 ==> (r * 100.0).Floor % 2 == 0
  {
    var n := RoundHalfEven(x * 100.0);
    assert (n as real / 100.0) * 100.0 == n as real;
    ScaleDown(n, x);
    n as real / 100.0
  }

  /** The distance in hundredths is a hundredth of the distance in whole
      numbers. */
  lemma ScaleDown(n: int, x: real)
    ensures Abs(n as real / 100.0 - x) == Abs(n as real - x * 100.0) / 100.0
  {
    var d := n as real - x * 100.0;
    assert n as real / 100.0 - x == d / 100.0;
  }

  /** No whole number is nearer to y than RoundHalfEven(y). */
  lemma RoundHalfEvenNearest(y: real, m: int)
    ensures Abs(RoundHalfEven(y) as real - y) <= Abs(m as real - y)
  {
    var f := y.Floor;
    assert m <= f || m >= f + 1;
  }

  /** Round2 picks a nearest whole number of hundredths. */
  lemma Round2Nearest(x: real, c: real)
    requires IsCents(c)
    ensures Abs(Round2(x) - x) <= Abs(c - x)
  {
    var m := (c * 100.0).Floor;
    RoundHalfEvenNearest(x * 100.0, m);
    var n := RoundHalfEven(x * 100.0);
    assert Round2(x) - x == (n as real - x * 100.0) / 100.0;
    assert c - x == (m as real - x * 100.0) / 100.0;
  }

  /** A value already in whole hundredths is left as it is. */
  lemma Round2Cents(x: real)
    requires IsCents(x)
    ensures Round2(x) == x
  {
    var m := (x * 100.0).Floor;
    assert (x * 100.0).Floor == m;
    assert RoundHalfEven(x * 100.0) == m;
  }

  /** Rounding twice is rounding once. */
  lemma Round2Idempotent(x: real)
    ensures Round2(Round2(x)) == Round2(x)
  {
    Round2Cents(Round2(x));
  }

  /** Whole hundredths times a whole number are whole hundredths. */
  lemma CentsScale(v: real, k: int)
    requires IsCents(v)
    ensures IsCents(v * k as real)
  {
    var m := (v * 100.0).Floor;
    assert (v * k as real) * 100.0 == (m * k) as real;
  }

  /** Whole hundredths plus whole hundredths are whole hundredths. */
  lemma CentsAdd(a: real, b: real)
    requires IsCents(a) && IsCents(b)
    ensures IsCents(a + b)
  {
    var m := (a * 100.0).Floor;
    var n := (b * 100.0).Floor;
    assert (a + b) * 100.0 == (m + n) as real;
  }
}

=== FILE: text.dfy ===
/** The string operations the parsers use: Python's whitespace test,
    str.strip(), splitting a value series into whitespace-separated
    tokens, and str.split / str.join on a one-character separator. */
module Text {

  /** Python's str.isspace() for one character, which is also the set of
      characters `\s` matches in a str pattern. */
  predicate IsSpace(c: char) {
    || ('\t' <= c <= '\r')
    || ('\U{1C}' <= c <= ' ')
    || c == '\U{85}' || c == '\U{A0}' || c == '\U{1680}'
    || ('\U{2000}' <= c <= '\U{200A}')
    || c == '\U{2028}' || c == '\U{2029}' || c == '\U{202F}'
    || c == '\U{205F}' || c == '\U{3000}'
  }

  predicate AllSpace(s: string) {
    forall i :: 0 <= i < |s| ==> IsSpace(s[i])
  }

  predicate NoSpace(s: string) {
    forall i :: 0 <= i < |s| ==> !IsSpace(s[i])
  }

  function StartsWith(s: string, prefix: string): bool {
    |prefix| <= |s| && s[..|prefix|] == prefix
  }

  /** The number of leading whitespace characters of s. */
  function LeadingSpace(s: string): (n: nat)
    ensures n <= |s| && AllSpace(s[..n])
    ensures n < |s| ==> !IsSpace(s[n])
  {
    if |s| > 0 && IsSpace(s[0]) then 1 + LeadingSpace(s[1..]) else 0
  }

  /** Python's s.strip(): whitespace comes off both ends until neither end
      is whitespace. */
  function Strip(s: string): (r: string)
    ensures |r| <= |s|
    ensures |r| > 0 ==> !IsSpace(r[0]) && !IsSpace(r[|r| - 1])
    decreases |s|
  {
    if |s| > 0 && IsSpace(s[0]) then Strip(s[1..])
    else if |s| > 0 && IsSpace(s[|s| - 1]) then Strip(s[..|s| - 1])
    else s
  }

  /** Only whitespace is removed, and only at the ends: the result is the
      slice of s at i with nothing but whitespace on either side. */
  lemma {:induction false} StripSlice(s: string) returns (i: nat)
    ensures i + |Strip(s)| <= |s| && Strip(s) == s[i..i + |Strip(s)|]
    ensures AllSpace(s[..i]) && AllSpace(s[i + |Strip(s)|..])
    decreases |s|, 1
  {
    if |s| > 0 && IsSpace(s[0]) {
      i := StripSliceFront(s);
    } else if |s| > 0 && IsSpace(s[|s| - 1]) {
      i := StripSliceBack(s);
    } else {
      i := 0;
      assert s[|s|..] == [];
    }
  }

  /** StripSlice when s starts with whitespace. */
  lemma {:induction false} StripSliceFront(s: string) returns (i: nat)
    requires |s| > 0 && IsSpace(s[0])
    ensures i + |Strip(s)| <= |s| && Strip(s) == s[i..i + |Strip(s)|]
    ensures AllSpace(s[..i]) && AllSpace(s[i + |Strip(s)|..])
    decreases |s|, 0
  {
    var j := StripSlice(s[1..]);
    i := j + 1;
    SpacedSliceFront(s, Strip(s[1..]), j);
  }

  /** StripSlice when s ends, but does not start, with whitespace. */
  lemma {:induction false} StripSliceBack(s: string) returns (i: nat)
    requires |s| > 0 && !IsSpace(s[0]) && IsSpace(s[|s| - 1])
    ensures i + |Strip(s)| <= |s| && Strip(s) == s[i..i + |Strip(s)|]
    ensures AllSpace(s[..i]) && AllSpace(s[i + |Strip(s)|..])
    decreases |s|, 0
  {
    i := StripSlice(s[..|s| - 1]);
    SpacedSliceBack(s, Strip(s[..|s| - 1]), i);
  }

  /** A whitespace-flanked slice of s[1..] stays one of s when s starts
      with whitespace. */
  lemma SpacedSliceFront(s: string, r: string, j: nat)
    requires |s| > 0 && IsSpace(s[0])
    requires j + |r| <= |s| - 1 && r == s[1..][j..j + |r|]
    requires AllSpace(s[1..][..j]) && AllSpace(s[1..][j + |r|..])
    ensures r == s[j + 1..j + 1 + |r|]
    ensures AllSpace(s[..j + 1]) && AllSpace(s[j + 1 + |r|..])
  {
    assert s[..j + 1] == [s[0]] + s[1..][..j];
    assert s[j + 1 + |r|..] == s[1..][j + |r|..];
  }

  /** A whitespace-flanked slice of s minus its last character stays one
      of s when s ends with whitespace. */
  lemma SpacedSliceBack(s: string, r: string, i: nat)
    requires |s| > 0 && IsSpace(s[|s| - 1])
    requires i + |r| <= |s| - 1 && r == s[..|s| - 1][i..i + |r|]
    requires AllSpace(s[..|s| - 1][..i]) && AllSpace(s[..|s| - 1][i + |r|..])
    ensures r == s[i..i + |r|]
    ensures AllSpace(s[..i]) && AllSpace(s[i + |r|..])
  {
    var t := s[..|s| - 1];
    assert s[..i] == t[..i];
    assert s[i + |r|..] == t[i + |r|..] + [s[|s| - 1]];
  }

  /** Strip undoes whitespace padding of a text that has no whitespace at
      its ends: it is the inverse of padding. */
  lemma {:induction false} StripPadded(lead: string, core: string, trail: string)
    requires AllSpace(lead) && AllSpace(trail)
    requires |core| > 0 ==> !IsSpace(core[0]) && !IsSpace(core[|core| - 1])
    ensures Strip(lead + core + trail) == core
    decreases |lead| + |trail|
  {
    var s := lead + core + trail;
    if |lead| > 0 {
      assert s[0] == lead[0];
      assert s[1..] == lead[1..] + core + trail;
      StripPadded(lead[1..], core, trail);
    } else if |trail| > 0 {
      assert s == core + trail;
      if |core| > 0 {
        assert s[0] == core[0];
        assert s[|s| - 1] == trail[|trail| - 1];
        var shorter := trail[..|trail| - 1];
        assert s[..|s| - 1] == lead + core + shorter;
        StripPadded(lead, core, shorter);
      } else {
        assert s[0] == trail[0];
        assert s[1..] == lead + core + trail[1..];
        StripPadded(lead, core, trail[1..]);
      }
    } else {
      assert s == core;
    }
  }

  /** The number of leading non-whitespace characters of s. */
  function TokenLength(s: string): (n: nat)
    ensures n <= |s| && NoSpace(s[..n])
    ensures n < |s| ==> IsSpace(s[n])
  {
    if |s| == 0 || IsSpace(s[0]) then 0 else 1 + TokenLength(s[1..])
  }

  /** The maximal runs of non-whitespace characters of s, in order: the
      lines of re.sub(r'\s+', '\n', s.strip()).splitlines(). */
  function Words(s: string): (ws: seq<string>)
    ensures forall i :: 0 <= i < |ws| ==> |ws[i]| > 0 && NoSpace(ws[i])
    decreases |s|
  {
    var t := s[LeadingSpace(s)..];
    if |t| == 0 then []
    else
      var n := TokenLength(t);
      [t[..n]] + Words(t[n..])
  }

  /** The position of the first c in s. */
  function IndexOf(s: string, c: char): (k: nat)
    requires c in s
    ensures k < |s| && s[k] == c && c !in s[..k]
  {
    if s[0] == c then 0
    else
      assert c in s[1..] by { assert s == [s[0]] + s[1..]; }
      var k := 1 + IndexOf(s[1..], c);
      assert s[..k] == [s[0]] + s[1..][..k - 1];
      k
  }

  /** Python's s.split(c) for a one-character separator: the pieces between
      separators, one more piece than there are separators. */
  function Split(s: string, c: char): (parts: seq<string>)
    ensures |parts| > 0
    ensures forall i :: 0 <= i < |parts| ==> c !in parts[i]
    decreases |s|
  {
    if c !in s then [s]
    else
      var k := IndexOf(s, c);
      [s[..k]] + Split(s[k + 1..], c)
  }

  /** There is one more piece than there are separators. */
  lemma {:induction false} SplitCount(s: string, c: char)
    ensures |Split(s, c)| == multiset(s)[c] + 1
    decreases |s|
  {
    if c !in s {
      assert multiset(s)[c] == 0;
    } else {
      var k := IndexOf(s, c);
      SplitCount(s[k + 1..], c);
      assert s == s[..k] + [c] + s[k + 1..];
      assert multiset(s[..k])[c] == 0;
    }
  }

  /** Python's c.join(parts) for a one-character separator. */
  function Join(parts: seq<string>, c: char): string {
    if |parts| == 0 then ""
    else if |parts| == 1 then parts[0]
    else parts[0] + [c] + Join(parts[1..], c)
  }

  /** Joining the pieces of a split restores the text. */
  lemma {:induction false} JoinSplit(s: string, c: char)
    ensures Join(Split(s, c), c) == s
    decreases |s|
  {
    if c in s {
      var k := IndexOf(s, c);
      var rest := Split(s[k + 1..], c);
      JoinSplit(s[k + 1..], c);
      assert Split(s, c) == [s[..k]] + rest;
      assert ([s[..k]] + rest)[1..] == rest;
      assert s == s[..k] + [c] + s[k + 1..];
    }
  }

  /** Splitting a text whose first piece is p gives p as the first piece. */
  lemma SplitAfterPiece(p: string, tail: string, c: char)
    requires c !in p
    ensures Split(p + [c] + tail, c) == [p] + Split(tail, c)
  {
    var s := p + [c] + tail;
    assert s[|p|] == c && s[..|p|] == p;
    assert IndexOf(s, c) == |p|;
    assert s[|p| + 1..] == tail;
  }

  /** Splitting a join of separator-free pieces gives the pieces back. */
  lemma {:induction false} SplitJoin(parts: seq<string>, c: char)
    requires |parts| > 0
    requires forall i :: 0 <= i < |parts| ==> c !in parts[i]
    ensures Split(Join(parts, c), c) == parts
  {
    if |parts| == 1 {
      assert Join(parts, c) == parts[0];
      assert c !in parts[0];
    } else {
      var tail := Join(parts[1..], c);
      SplitJoin(parts[1..], c);
      assert Join(parts, c) == parts[0] + [c] + tail;
      SplitAfterPiece(parts[0], tail, c);
      assert parts == [parts[0]] + parts[1..];
    }
  }

  /** A leading whitespace character does not change the words. */
  lemma WordsSkipSpace(c: char, s: string)
    requires IsSpace(c)
    ensures Words([c] + s) == Words(s)
  {
    assert ([c] + s)[1..] == s;
    assert ([c] + s)[LeadingSpace([c] + s)..] == s[LeadingSpace(s)..];
  }

  /** Text that is all whitespace has no words. */
  lemma WordsAllSpace(s: string)
    requires AllSpace(s)
    ensures Words(s) == []
  {
    assert LeadingSpace(s) == |s|;
  }

  /** Leading whitespace of any length does not change the words. */
  lemma {:induction false} WordsSkipLead(lead: string, s: string)
    requires AllSpace(lead)
    ensures Words(lead + s) == Words(s)
    decreases |lead|
  {
    if |lead| > 0 {
      assert lead + s == [lead[0]] + (lead[1..] + s);
      WordsSkipSpace(lead[0], lead[1..] + s);
      WordsSkipLead(lead[1..], s);
    } else {
      assert lead + s == s;
    }
  }

  /** A word after any leading whitespace and before a run of one or more
      whitespace characters is the first word; the words of the rest
      follow. */
  lemma WordsCons(lead: string, w: string, sep: string, rest: string)
    requires AllSpace(lead)
    requires |w| > 0 && NoSpace(w)
    requires |sep| > 0 && AllSpace(sep)
    ensures Words(lead + w + sep + rest) == [w] + Words(rest)
  {
    var s := w + (sep + rest);
    assert lead + w + sep + rest == lead + s;
    WordsSkipLead(lead, s);
    assert !IsSpace(s[0]);
    assert s[LeadingSpace(s)..] == s;
    TokenLengthPrefix(w, sep + rest);
    assert s[..|w|] == w && s[|w|..] == sep + rest;
    WordsSkipLead(sep, rest);
  }

  /** A last word followed by nothing but whitespace is the only word left. */
  lemma WordsLast(lead: string, w: string, trail: string)
    requires AllSpace(lead) && AllSpace(trail)
    requires |w| > 0 && NoSpace(w)
    ensures Words(lead + w + trail) == [w]
  {
    if |trail| == 0 {
      var s := w + trail;
      assert lead + w + trail == lead + s;
      WordsSkipLead(lead, s);
      assert s == w;
      assert !IsSpace(s[0]);
      assert s[LeadingSpace(s)..] == s;
      TokenLengthPrefix(w, trail);
      assert s[..|w|] == w && s[|w|..] == [];
      WordsAllSpace([]);
    } else {
      assert lead + w + trail == lead + w + trail + [];
      WordsCons(lead, w, trail, []);
      WordsAllSpace([]);
    }
  }

  /** Joining non-empty whitespace-free tokens with blanks and splitting the
      result into words gives the tokens back. */
  lemma {:induction false} WordsJoin(tokens: seq<string>)
    requires forall i :: 0 <= i < |tokens| ==> |tokens[i]| > 0 && NoSpace(tokens[i])
    ensures Words(Join(tokens, ' ')) == tokens
  {
    if |tokens| > 0 {
      var w := tokens[0];
      var rest := if |tokens| == 1 then "" else [' '] + Join(tokens[1..], ' ');
      var s := Join(tokens, ' ');
      assert s == w + rest;
      assert LeadingSpace(s) == 0;
      assert s[LeadingSpace(s)..] == s;
      TokenLengthPrefix(w, rest);
      assert s[..|w|] == w;
      assert s[|w|..] == rest;
      if |tokens| == 1 {
        assert Words(rest) == [];
      } else {
        WordsJoin(tokens[1..]);
        WordsSkipSpace(' ', Join(tokens[1..], ' '));
      }
      assert tokens == [w] + tokens[1..];
    }
  }

  lemma {:induction false} TokenLengthPrefix(w: string, rest: string)
    requires NoSpace(w)
    requires |rest| > 0 ==> IsSpace(rest[0])
    ensures TokenLength(w + rest) == |w|
    decreases |w|
  {
    if |w| > 0 {
      assert (w + rest)[1..] == w[1..] + rest;
      TokenLengthPrefix(w[1..], rest);
    } else {
      assert w + rest == rest;
    }
  }
}
